=== FILE: README.md ===
# PE32 export-table reader and mission table, in Dafny

This project models the read-only PE32 export-table reader that lists
Outpost 2 mission DLLs, together with the pure parts of the mission table
built on top of it.

The reader takes the bytes of a DLL and does four things:

1. It validates the headers in a fixed order:
   - the `"PE\0\0"` signature must sit at the offset stored at 0x3C;
   - the COFF characteristics must have `IMAGE_FILE_DLL` (0x2000) set;
   - the optional-header magic must be 0x10B (PE32).
2. It reads the data directories and then the section headers.
3. From data directory 0, it loads the export name table and the export
   address table.
4. It answers queries by export name: whether an export exists, its
   ordinal, its file offset, the null-terminated string stored there,
   and the fixed number of bytes stored there.

The model treats the file as a `seq<byte>` and parsing as a pure function
that returns a `Result`. The reader is an immutable datatype: the section
list, the name table and the address table never change after
construction, so no query can change them.

`DllExportedVariablesReader32.cpp` is an older copy of the same reader.
Apart from defining its own string read, its logic is identical, and one
model covers both copies.
`ReadNullTerminatedString(maxCount)` is defined only in that older copy,
and it is the model of the string read both copies perform. The table
below cites the newer copy. In `DllExportedVariablesReader32.cpp`, the
same members sit at these lines:

- the constructor (`ExportReader.NewReader`): 11-60;
- `FindSectionTableContainingRva`: 62-74;
- `LoadNameTable`: 76-87;
- `RvaToFileOffset`: 108-112;
- `IsPortableExecutableFile`: 114-128;
- `IsDll`: 130-133;
- `GetString` (`ExportReader.ReadExportString`): 135-139;
- `GetExportOrdinal`: 141-150;
- `GetExportedFileOffset`: 152-157;
- `DoesExportExist`: 159-162.

Modules, one per file:

- `Results` (`results.dfy`): the `Result` type and the reader's failure kinds.
- `Bytes` (`bytes.dfy`): bytes, `uint16_t`/`uint32_t` as bounded integers, little-endian
  decoding and encoding, and 32-bit wrap-around arithmetic written out.
- `Layout` (`layout.dfy`): a packed structure as a list of field widths, with offsets,
  size, and field-by-field decoding and encoding.
- `PeStructures` (`pe_structures.dfy`): the five packed PE/COFF structures, each with a
  decoder from exactly its size in bytes and an encoder back.
- `ByteStream` (`byte_stream.dfy`): the reads a file stream performs: fixed-size reads,
  arrays of records, and the capped null-terminated string read.
- `ExportReader` (`export_reader.dfy`): the reader's constructor, section lookup, RVA
  translation and the export queries.
- `MissionDefinitions` (`mission_definitions.dfy`): the `MissionTypes` enumeration and the
  four leading ints of `AIModDesc`.
- `MissionTable` (`mission_table.dfy`): the legends, the mission-type key, the T/F cell,
  the header layout, the sorted order of the paths and the choice of rows.

## Model

| member | source | states |
|---|---|---|
| Bytes.DecodeEncodeLE | PEDataStructures.h:9 | decoding the `width`-byte little-endian encoding of a value below 256^width gives the value back |
| Bytes.EncodeDecodeLE | PEDataStructures.h:9 | encoding a decoded byte string at its own width gives the same bytes |
| Bytes.SubAdd32 | DllExportReader32.cpp:89-93 | `uint32_t` addition followed by subtracting the same amount is the identity, wrap-around included |
| Bytes.AddSub32 | DllExportReader32.cpp:89-93 | `uint32_t` subtraction followed by adding back the same amount is the identity, wrap-around included |
| Bytes.FromInt32 | Outpost2DllExportedDefinitions.h:10-13 | every 32-bit `int` has a `uint32_t` bit pattern that reads back as that `int` |
| Layout.DecodeEncodeFields | PEDataStructures.h:9 | in a packed structure, decoding the end-to-end field encodings gives back every field that fits its width |
| Layout.EncodeDecodeFields | PEDataStructures.h:108 | re-encoding the decoded fields of a structure reproduces its bytes exactly, so a packed structure has no padding |
| PeStructures.ExportDirectoryTableLayout | PEDataStructures.h:11-26 | the export directory table has 11 fields and is 40 bytes; the name-pointer count is at 24, the address table RVA at 28, the name-pointer RVA at 32 and the ordinal table RVA at 36 |
| PeStructures.DecodeExportDirectoryTable | PEDataStructures.h:11-26 | from exactly 40 bytes, the name-pointer count, address table RVA, name-pointer RVA and ordinal table RVA are the little-endian words at 24, 28, 32 and 36 |
| PeStructures.EncodeExportDirectoryTable | PEDataStructures.h:11-26 | every export directory table has a 40-byte encoding that decodes back to it |
| PeStructures.ExportDirectoryTableRoundTrip | PEDataStructures.h:11-26 | decoding the packed fields of an export directory table gives the table back |
| PeStructures.ExportDirectoryTableDecodeRoundTrip | PEDataStructures.h:11-26 | encoding the export directory table decoded from any correctly sized byte string gives that string back, so the packed layout has no padding and every byte is a field's |
| PeStructures.CoffHeaderLayout | PEDataStructures.h:29-40 | the COFF header has 7 fields and is 20 bytes; the section count is the `u16` at 2 and the characteristics the `u16` at 18 |
| PeStructures.DecodeCoffHeader | PEDataStructures.h:29-40 | from exactly 20 bytes, the section count and the characteristics are the little-endian halves at 2 and 18 |
| PeStructures.EncodeCoffHeader | PEDataStructures.h:29-40 | every COFF header has a 20-byte encoding that decodes back to it |
| PeStructures.CoffHeaderRoundTrip | PEDataStructures.h:29-40 | decoding the packed fields of a COFF header gives the header back |
| PeStructures.CoffHeaderDecodeRoundTrip | PEDataStructures.h:29-40 | encoding the COFF header decoded from any correctly sized byte string gives that string back, so the packed layout has no padding and every byte is a field's |
| PeStructures.Image32BitLayout | PEDataStructures.h:43-77 | the PE32 optional header, without its data directories, has 30 fields and is 96 bytes; the magic is the `u16` at 0 and the directory count the `u32` at 92 |
| PeStructures.DecodeImage32Bit | PEDataStructures.h:43-77 | from exactly 96 bytes, the magic and the directory count are the little-endian values at 0 and 92 |
| PeStructures.EncodeImage32Bit | PEDataStructures.h:43-77 | every optional header has a 96-byte encoding that decodes back to it |
| PeStructures.Image32BitRoundTrip | PEDataStructures.h:43-77 | decoding the packed fields of an optional header gives the header back |
| PeStructures.Image32BitDecodeRoundTrip | PEDataStructures.h:43-77 | encoding the optional header decoded from any correctly sized byte string gives that string back, so the packed layout has no padding and every byte is a field's |
| PeStructures.SectionTableLayout | PEDataStructures.h:80-94 | a section header is 40 bytes, an 8-byte name then 9 fields; the virtual size is at 8, the virtual address at 12 and the raw-data pointer at 20 |
| PeStructures.DecodeSectionTable | PEDataStructures.h:80-94 | from exactly 40 bytes, the virtual size, virtual address and raw-data pointer are the little-endian words at 8, 12 and 20 |
| PeStructures.EncodeSectionTable | PEDataStructures.h:80-94 | every section header has a 40-byte encoding that decodes back to it |
| PeStructures.SectionTableRoundTrip | PEDataStructures.h:80-94 | decoding the packed fields of a section header, name included, gives the header back |
| PeStructures.SectionTableDecodeRoundTrip | PEDataStructures.h:80-94 | encoding the section header decoded from any correctly sized byte string gives that string back, so the packed layout has no padding and every byte is a field's |
| PeStructures.ImageDataDirectoryLayout | PEDataStructures.h:97-106 | a data directory entry is 8 bytes: the virtual address at 0 and the size at 4 |
| PeStructures.DecodeImageDataDirectory | PEDataStructures.h:97-106 | from exactly 8 bytes, the virtual address and the size are the little-endian words at 0 and 4 |
| PeStructures.EncodeImageDataDirectory | PEDataStructures.h:97-106 | every data directory entry has an 8-byte encoding that decodes back to it |
| PeStructures.ImageDataDirectoryRoundTrip | PEDataStructures.h:97-106 | decoding the packed fields of a data directory entry gives it back |
| PeStructures.ImageDataDirectoryDecodeRoundTrip | PEDataStructures.h:97-106 | encoding the data directory entry decoded from any correctly sized byte string gives that string back, so the packed layout has no padding and every byte is a field's |
| ByteStream.ReadBytes | DllExportReader32.h:24-28 | a read of `count` bytes at `offset` succeeds exactly when they lie within the file (or `count` is 0); it gives those bytes, and otherwise fails with end of stream at that offset |
| ByteStream.ReadU32 | DllExportReader32.cpp:97-100 | a `uint32_t` read succeeds exactly when four bytes remain, and gives their little-endian value |
| ByteStream.ReadRecords | DllExportReader32.cpp:32-36 | reading `count` records of `size` bytes succeeds exactly when all of them fit; it gives `count` records, record `i` being the `size` bytes at `offset + i*size` |
| ByteStream.ReadU16Array | DllExportReader32.cpp:53-55 | reading `count` 16-bit entries succeeds exactly when they fit; entry `i` is the little-endian half at `offset + 2i`; a short read fails with end of stream for the whole array |
| ByteStream.ReadU32Array | DllExportReader32.cpp:57-59 | reading `count` 32-bit entries succeeds exactly when they fit; entry `i` is the little-endian word at `offset + 4i`; a short read fails with end of stream for the whole array |
| ByteStream.ReadNullTerminatedStringSpec | DllExportedVariablesReader32.cpp:89-106 | the capped string read fails exactly when the cap is positive, it runs off the end of the file, and no zero byte comes first; otherwise the result is at most `maxCount` bytes long, has no zero byte, copies the file from `offset`, and ends at a zero byte unless the cap is reached |
| ByteStream.StringEndsAtFirstZero | DllExportedVariablesReader32.cpp:95-101 | when a zero byte comes within the first `maxCount` bytes, the result is exactly the bytes before the first zero |
| ByteStream.StringStopsAtCap | DllExportedVariablesReader32.cpp:95-105 | when no zero byte comes within `maxCount` bytes, the result is exactly those `maxCount` bytes |
| ByteStream.ReadNullTerminatedStringLoop | DllExportedVariablesReader32.cpp:89-106 | the byte-at-a-time loop computes the recursive definition; it consumes at most `maxCount` bytes, namely the string and its terminator, or `maxCount` bytes when the cap stops it |
| ExportReader.FindSectionTableContainingRva | DllExportReader32.cpp:62-74 | the lookup succeeds exactly when some section has `va <= rva <= va + virtualSize` (a `uint32_t` sum); it gives the first such section in file order, and otherwise fails naming the RVA |
| ExportReader.RvaToFileOffset | DllExportReader32.cpp:89-93 | the file offset is `rva - va + pointerToRawData` modulo 2^32 |
| ExportReader.RvaToFileOffsetRoundTrip | DllExportReader32.cpp:89-93 | translating back from the file offset with the same section recovers the RVA |
| ExportReader.RvaToFileOffsetWithinSection | DllExportReader32.cpp:89-93 | for an RVA inside a section, with no wrap-around, the offset is the plain integer `rva - va + raw` |
| ExportReader.RvaToFileOffsetExamples | DllExportReader32.cpp:62-93 | with VA 0x1000, raw 0x400 and size 0x200, RVA 0x1050 goes to 0x450 and 0x0FFF to 0x3FF; 0x1200 is in the section (inclusive bound) and 0x1201 is not |
| ExportReader.SectionBoundIsInclusive | DllExportReader32.cpp:66-67 | the address one past the section's last byte still counts as inside it |
| ExportReader.WrappedSectionContainsNothing | DllExportReader32.cpp:66-67 | whenever `va + virtualSize` wraps past 2^32, the `uint32_t` bound falls below `va` and the section contains no RVA |
| ExportReader.IsPortableExecutableFile | DllExportReader32.cpp:95-109 | the check succeeds exactly when both the pointer at 0x3C and the four bytes it points to are in the file, and answers true exactly when those bytes are `'P','E',0,0`; a read past the end fails with end of stream |
| ExportReader.IsDll | DllExportReader32.cpp:111-114 | a file is a DLL exactly when bit 13 (0x2000) of the characteristics is set |
| ExportReader.ReadDataDirectories | DllExportReader32.cpp:32-33 | reading `count` data directories succeeds exactly when they fit; entry `i` decodes the 8 bytes at `offset + 8i`; a short read fails with end of stream for the whole array |
| ExportReader.ReadSectionTables | DllExportReader32.cpp:35-36 | reading `count` section headers succeeds exactly when they fit; entry `i` decodes the 40 bytes at `offset + 40i`; a short read fails with end of stream for the whole array |
| ExportReader.ReadCoffAndImage | DllExportReader32.cpp:18-30 | the COFF header is read right after the signature and the optional header right after it; a header without the DLL bit fails as not a DLL before the optional header is read, and a magic other than 0x10B fails as unsupported; a COFF header or (after the DLL check) an optional header cut short by the end of the file fails with end of stream there, and no other error arises |
| ExportReader.ReadTables | DllExportReader32.cpp:32-36 | the data directories come right after the optional header, `numberOfRvaAndSizes` of them, then `numberOfSections` section headers; the read succeeds exactly when both arrays lie within the file, a short directory array fails with end of stream for it, and every failure is end of stream |
| ExportReader.ReadHeaders | DllExportReader32.cpp:14-36 | a successful header parse found the signature, the DLL bit and the PE32 magic, and read the tables at their packed positions; every failure is end of stream, not a PE file, not a DLL or unsupported architecture |
| ExportReader.HeaderChecksInOrder | DllExportReader32.cpp:14-30 | construction fails at the signature read or check first, then at the COFF read or DLL check, then at the optional-header read or magic check; no later check is reached after an earlier failure; a COFF header cut short fails with end of stream at it, as does an optional header cut short after a good DLL bit |
| ExportReader.HeadersAtDetermines | DllExportReader32.cpp:14-36 | headers laid out at their packed positions are exactly what the parse returns, so the parse is determined by the bytes |
| ExportReader.TablesAtDetermines | DllExportReader32.cpp:32-36 | tables laid out at their packed positions are exactly what the table read returns |
| ExportReader.DataDirectoriesDetermined | DllExportReader32.cpp:32-33 | directories whose encodings sit back to back at `offset` are exactly what the directory read returns |
| ExportReader.SectionTablesDetermined | DllExportReader32.cpp:35-36 | section headers whose encodings sit back to back at `offset` are exactly what the section read returns |
| ExportReader.ReadNames | DllExportReader32.cpp:82-86 | reading the names succeeds exactly when every name string reads; name `i` is the string at name pointer `i`, and a failure is that of the first name that fails |
| ExportReader.LoadNameTable | DllExportReader32.cpp:76-87 | the name-pointer array is read through the given section; the table has one name per pointer, in pointer order, each string translated through the same section; it loads exactly when the pointer array lies within the file and every name it points to can be read; every failure is end of stream |
| ExportReader.LoadExportsFrom | DllExportReader32.cpp:45-59 | every construction-time RVA (pointer array, names, ordinal table, address table) is translated with the one section found for the export directory; there are as many addresses as names, and a failing ordinal-table read fails construction although the ordinals are discarded; every failure is end of stream |
| ExportReader.ExportsLoadedFromDetermines | DllExportReader32.cpp:45-59 | export tables laid out in the file as the export directory describes are exactly what loading that directory yields |
| ExportReader.LoadExports | DllExportReader32.cpp:38-59 | an export directory RVA of 0 gives empty tables; otherwise the section containing it is found and the tables are loaded through it, and an RVA no section contains fails as unmapped; the name and address tables always have equal length; once the section is found, every failure is end of stream |
| ExportReader.NewReader | DllExportReader32.cpp:11-60 | a constructed reader comes from a valid header parse, holds the file's section headers, and holds exactly the name and address tables loaded through the export directory's section (or none when its RVA is 0); a header failure is the constructor's failure; after good headers, a missing data directory 0 fails as `MissingExportDirectoryEntry` and an export directory RVA no section contains fails as unmapped; once that section is found, every failure is end of stream |
| ExportReader.NewReaderDetermines | DllExportReader32.cpp:11-60 | a file whose headers and export tables are laid out as the constructor describes is constructed into exactly that reader |
| ExportReader.NoExportDirectoryMeansNoExports | DllExportReader32.cpp:38-43 | when data directory 0 has RVA 0, construction succeeds with an empty name table and no export exists |
| ExportReader.GetExportOrdinal | DllExportReader32.cpp:122-131 | the lookup succeeds exactly when the name is in the table and gives the index of its first occurrence; otherwise it fails naming the export |
| ExportReader.DoesExportExist | DllExportReader32.cpp:140-143 | an export exists exactly when the ordinal lookup succeeds |
| ExportReader.GetExportedFileOffset | DllExportReader32.cpp:133-138 | an absent name fails; for a present name the lookup succeeds exactly when some section contains the address at the name's index, fails as unmapped otherwise, and on success translating the offset back with the first such section gives that address |
| ExportReader.ReadExportString | DllExportReader32.cpp:116-120 | an absent name fails without reading and an offset failure is passed on; otherwise the result is the capped null-terminated string at the export's file offset, failing exactly when the file ends before a zero byte or the cap |
| ExportReader.ReadExport | DllExportReader32.h:19-29 | an absent name fails and an offset failure is passed on; otherwise the read succeeds exactly when `size` is 0 or the `size` bytes at the export's offset lie within the file, gives exactly those bytes, and fails with end of stream there |
| MissionDefinitions.Value | Outpost2DllExportedDefinitions.h:26-37 | every mode is stored as a value from -1 to -8 |
| MissionDefinitions.FromValue | Outpost2DllExportedDefinitions.h:26-37 | a stored value names a mode exactly when it lies in -8..-1, and that mode is stored as the value |
| MissionDefinitions.FromValueOfValue | Outpost2DllExportedDefinitions.h:26-37 | each mode is recovered from its stored value, so the eight values are distinct |
| MissionDefinitions.CampaignIsNotAMode | Outpost2DllExportedDefinitions.h:10 | a positive mission type, a campaign mission number, is not a member of the enumeration |
| MissionDefinitions.DllPrefix | Outpost2DllExportedDefinitions.h:22-36 | each mode's DLL file-name prefix is one or two characters |
| MissionDefinitions.DllPrefixIdentifiesMode | Outpost2DllExportedDefinitions.h:22-36 | a prefix starts with `m` exactly for the multiplayer modes, and no two modes share a prefix |
| MissionDefinitions.DecodeAIModDescHead | Outpost2DllExportedDefinitions.h:7-13 | the four leading fields of the description block are 32-bit `int`s |
| MissionDefinitions.DecodeEncodeAIModDescHead | Outpost2DllExportedDefinitions.h:7-13 | `missionType`, `numPlayers`, `maxTechLevel` and `boolUnitMission` occupy bytes 0, 4, 8 and 12 in that order: encoding four ints and decoding the block gives them back |
| MissionTable.FindMaxKeyWidth | MissionTable.cpp:64-72 | the width is at least every key's length and equals some key's length |
| MissionTable.LegendKeyWidths | MissionTable.cpp:37-62 | the column legend's key column is 19 wide and the mission-type legend's is 3 wide |
| MissionTable.ConvertMissionTypeToString | MissionTable.cpp:176-189 | every positive value gives "Cam"; a value gets a key exactly when it is at least -8, and that key is a mission-type legend key; below -8 it fails naming the value |
| MissionTable.MissionTypeKeys | MissionTable.cpp:49-62 | 0 gives "Cam", Colony "Col", AutoDemo "Dem", Tutorial "Tut", and -9 is refused |
| MissionTable.MultiplayerMissionTypeKeys | MissionTable.cpp:49-62 | the multiplayer modes give "MLR", "MSP", "MRR", "MM" and "ML" |
| MissionTable.ConvertMissionTypeMatchesModes | MissionTable.cpp:176-189 | a value gets a key exactly when it is a campaign number, zero, or a mode of the enumeration; two values at most 0 with the same key are equal |
| MissionTable.WriteBoolCell | MissionTable.cpp:164-172 | the cell is one character, "T" exactly for true and "F" exactly for false |
| MissionTable.UnitOnlyCell | MissionTable.cpp:132 | the unit-only cell is "T" exactly when the stored int is non-zero |
| MissionTable.HeaderCells | MissionTable.cpp:115-121 | the header has one cell per title, and cell `i` pairs title `i` with width `i` |
| MissionTable.HeaderLayout | MissionTable.cpp:37-47 | there are seven titles and seven widths, from "DLL NAME" 9 wide to "MISSION DESCRIPTION" 1 wide |
| MissionTable.LexLeTotal | MissionTable.cpp:97 | any two paths are ordered one way or the other |
| MissionTable.LexLeTransitive | MissionTable.cpp:97 | the path order is transitive |
| MissionTable.LexLeAntisymmetric | MissionTable.cpp:97 | paths ordered both ways are equal |
| MissionTable.Insert | MissionTable.cpp:97 | inserting into a sorted list keeps it sorted and adds exactly the one path |
| MissionTable.SortPaths | MissionTable.cpp:97 | the sorted paths are in ascending order and are a permutation of the input |
| MissionTable.SortedPermutationUnique | MissionTable.cpp:97 | two ascending arrangements of the same paths are identical, so the order does not depend on the sorting algorithm |
| MissionTable.OpenFrom | MissionTable.cpp:101 | opening a path of the file system constructs the reader from its bytes, and every reader so opened is well formed |
| MissionTable.KeepWhere | MissionTable.cpp:98-105 | the kept paths are exactly those satisfying the test, each as often as it was given, and a sorted input stays sorted |
| MissionTable.SelectMissionRows | MissionTable.cpp:97-105 | the rows are in ascending order and are exactly the paths that open and export "LevelDesc", each as often as given |
| MissionTable.SelectMissionRowsUnique | MissionTable.cpp:97-105 | any ascending arrangement of exactly those paths is the selection |
| MissionTable.DescBlockCells | MissionTable.cpp:129-132 | the type key, player count and unit-only cell come from the decoded description block; the row stops exactly when the mission type is below -8 |
| MissionTable.DescribeMission | MissionTable.cpp:123-145 | the row reads "DescBlock" first, so a mission without it fails naming it and a failing block read is the row's failure; a row is complete exactly when the block, its cells and the "MapName", "TechtreeName" and "LevelDesc" strings all read, and then holds exactly those values |
| MissionTable.WriteTable | MissionTable.cpp:93-113 | one row per selected path in the selection's order, each listing a mission that opens and exports "LevelDesc", with the cells read through its reader |

## Left out

- File and console I/O: opening files, `std::cout`/`std::cerr`, `setw` padding, the legend printout and the error messages. A file is a `seq<byte>`, and a mission's row is a `Result` rather than printed text.
- The stream library that both readers call: it is not part of this model. Seeking is free. A read succeeds exactly when its bytes lie in the file, and otherwise fails with end of stream.
- ByteStream.ReadBytes: a read of zero bytes succeeds at any offset. The stream library's behaviour for that case is not visible.
- ExportReader.IsPortableExecutableFile: when the 0x3C pointer or the signature it points to lies outside the file, the result is an end-of-stream failure rather than "not a portable executable". The code has no bounds check of its own there, and the failure comes from the stream read.
- ExportReader.LoadExports: when `numberOfRvaAndSizes` is 0, the source indexes entry 0 of an empty vector, which is undefined behaviour. The model fails with `MissingExportDirectoryEntry` instead.
- ExportReader.ReadExportString: the default cap of the string read is not visible, so it is the reader's parameter `stringCap`.
- ExportReader.LoadExportsFrom: the ordinal table's contents are read and then discarded, as in the source. Only the read's failure is modelled. Addresses are indexed by name position, exactly as the code does.
- ExportReader.ReadExport: the result is the raw `size` bytes. Interpreting them as a trivially copyable `T` is left to the caller, since `T` is generic.
- MissionDefinitions.DecodeAIModDescHead: only the four leading ints of `AIModDesc` are decoded. The three pointer fields and the checksum have a platform-dependent layout. The size of the whole block is the parameter `descBlockSize`, which must be at least 16.
- MissionTable.FindMaxKeyWidth: requires a non-empty legend. `std::max_element` on an empty array would dereference the end iterator, and both legends are non-empty.
- MissionTable.ConvertMissionTypeToString: takes an unbounded `int`. For `INT_MIN`, the negation in the C++ code is signed overflow, which is undefined behaviour. The model gives `ImproperMissionType` for that value, as two's-complement wrap-around would, rather than modelling the overflow.
- MissionTable.SortPaths: paths are compared character by character on code points. `std::string` compares `char` values as unsigned bytes, which agrees for paths whose characters are below 256.
- MissionTable.OpenFrom: a path missing from the file system is opened as a file of no bytes, which fails at the signature read. The stream library's own failure for a missing file is not visible.
- MissionTable.DescribeMission: when a read fails partway through a row, the source has already printed the earlier cells. The model gives the failure for the whole row.
- MissionTable.WriteTable: file names are shown as the path with its directory and extension stripped by `std::filesystem`. The model keeps the whole path.
- `MissionScanner.cpp`, which gathers arguments, scans directories and prints help text: this is I/O glue and is not part of this model.
- `DllExportedVariablesReader32.h`: a stale header whose declarations do not match the older reader's `.cpp`. It holds no logic.

=== FILE: byte_stream.dfy ===
/** The seekable byte stream the reader parses.

    The file is a byte sequence. A seek only moves the position, so it
    never fails; every read of N bytes at a position needs N bytes to be
    left, and fails with `EndOfStream` otherwise, as the file stream throws
    on a short read. Because every read here starts from an explicit
    position, the position is an argument and each caller knows where the
    next read begins: right after the bytes just read.
 */
module ByteStream {
  import opened Bytes
  import opened Results

  /** Read `count` bytes starting at `offset`. A read of no bytes needs
      nothing to be left, so it succeeds wherever the position is. */
  function ReadBytes(data: seq<byte>, offset: nat, count: nat): (r: Result<seq<byte>>)
    ensures r.Ok? <==> count == 0 || offset + count <= |data|
    ensures r.Ok? ==> |r.value| == count
    ensures r.Ok? && count > 0 ==> r.value == data[offset..offset + count]
    ensures r.Err? ==> r.error == EndOfStream(offset, count)
  {
    if count == 0 then Ok([])
    else if offset + count <= |data| then Ok(data[offset..offset + count])
    else Err(EndOfStream(offset, count))
  }

  /** A little-endian `uint32_t` at `offset`. */
  function ReadU32(data: seq<byte>, offset: nat): (r: Result<u32>)
    ensures r.Ok? <==> offset + 4 <= |data|
    ensures r.Ok? ==> r.value == DecodeLE(data[offset..offset + 4])
  {
    var b :- ReadBytes(data, offset, 4);
    Pow256Values();
    Ok(DecodeLE(b))
  }

  /** Record `i` of `count` records of `size` bytes ends within the whole run. */
  lemma {:induction false} RecordEnd(i: nat, count: nat, size: nat)
    requires i < count
    ensures i * size + size <= count * size
    decreases count
  {
    if i + 1 < count {
      RecordEnd(i, count - 1, size);
    }
    assert (count - 1) * size + size == count * size;
  }

  /** Where record `i` starts, relative to the first record. */
  function RecordStart(i: nat, size: nat): nat
  {
    i * size
  }

  /** Every record of a run of `count` records ends within the run. */
  lemma RecordsWithin(count: nat, size: nat)
    ensures forall i :: 0 <= i < count ==> RecordStart(i, size) + size <= count * size
  {
    forall i | 0 <= i < count
      ensures RecordStart(i, size) + size <= count * size
    {
      RecordEnd(i, count, size);
    }
  }

  /** The bytes of record `i` of those of `size` bytes packed from `offset` on. */
  function RecordAt(data: seq<byte>, offset: nat, i: nat, size: nat): (b: seq<byte>)
    requires offset + RecordStart(i, size) + size <= |data|
    ensures |b| == size
  {
    data[offset + RecordStart(i, size)..offset + RecordStart(i, size) + size]
  }

  /** Read `count` packed records of `size` bytes each: one read of `count * size` bytes. */
  function ReadRecords(data: seq<byte>, offset: nat, count: nat, size: nat): (r: Result<seq<seq<byte>>>)
    ensures r.Ok? <==> count * size == 0 || offset + count * size <= |data|
    ensures r.Ok? ==> |r.value| == count
    ensures r.Ok? ==> forall i :: 0 <= i < count ==> |r.value[i]| == size
    ensures r.Ok? && size > 0 ==> forall i :: 0 <= i < count ==>
      && offset + RecordStart(i, size) + size <= |data|
      && r.value[i] == RecordAt(data, offset, i, size)
    ensures r.Err? ==> r.error == EndOfStream(offset, count * size)
  {
    var _ :- ReadBytes(data, offset, count * size);
    if size == 0 then Ok(seq(count, i => []))
    else
      RecordsWithin(count, size);
      Ok(seq(count, i requires 0 <= i < count && offset + count * size <= |data| =>
        RecordAt(data, offset, i, size)))
  }

  /** Read `count` little-endian `uint16_t` values. */
  function ReadU16Array(data: seq<byte>, offset: nat, count: nat): (r: Result<seq<u16>>)
    ensures r.Ok? <==> count == 0 || offset + count * 2 <= |data|
    ensures r.Ok? ==> |r.value| == count
    ensures r.Ok? ==> forall i :: 0 <= i < count ==>
      offset + i * 2 + 2 <= |data| && r.value[i] == DecodeLE(data[offset + i * 2..offset + i * 2 + 2])
    ensures r.Err? ==> r.error == EndOfStream(offset, count * 2)
  {
    var records :- ReadRecords(data, offset, count, 2);
    Pow256Values();
    Ok(seq(count, i requires 0 <= i < count => DecodeLE(records[i]) as u16))
  }

  /** Read `count` little-endian `uint32_t` values. */
  function ReadU32Array(data: seq<byte>, offset: nat, count: nat): (r: Result<seq<u32>>)
    ensures r.Ok? <==> count == 0 || offset + count * 4 <= |data|
    ensures r.Ok? ==> |r.value| == count
    ensures r.Ok? ==> forall i :: 0 <= i < count ==>
      offset + i * 4 + 4 <= |data| && r.value[i] == DecodeLE(data[offset + i * 4..offset + i * 4 + 4])
    ensures r.Err? ==> r.error == EndOfStream(offset, count * 4)
  {
    var records :- ReadRecords(data, offset, count, 4);
    Pow256Values();
    Ok(seq(count, i requires 0 <= i < count => DecodeLE(records[i]) as u32))
  }

  /** Positions `from` up to, not including, `to` all hold a non-zero byte. */
  predicate NoZeroIn(data: seq<byte>, from: nat, to: nat)
  {
    forall i :: from <= i < to ==> i < |data| && data[i] != 0
  }

  /** Read bytes one at a time until a zero byte or until `maxCount` bytes
      have been read. The zero byte is consumed but not returned; running
      out of data first is a short read. */
  function ReadNullTerminatedString(data: seq<byte>, offset: nat, maxCount: nat): (r: Result<seq<byte>>)
    decreases maxCount
  {
    if maxCount == 0 then Ok([])
    else if offset >= |data| then Err(EndOfStream(offset, 1))
    else if data[offset] == 0 then Ok([])
    else
      var rest :- ReadNullTerminatedString(data, offset + 1, maxCount - 1);
      Ok([data[offset]] + rest)
  }

  /** `s` is what a string read at `offset` capped at `maxCount` may
      return: at most `maxCount` bytes copied from `offset`, none of them
      zero, and fewer than `maxCount` only when a zero byte follows. */
  predicate IsCappedString(data: seq<byte>, offset: nat, maxCount: nat, s: seq<byte>)
  {
    && |s| <= maxCount
    && NoZeroIn(data, offset, offset + |s|)
    && (forall i :: 0 <= i < |s| ==> offset + i < |data| && s[i] == data[offset + i])
    && (|s| < maxCount ==> offset + |s| < |data| && data[offset + |s|] == 0)
  }

  /** What `ReadNullTerminatedString` returns: a capped string, and a
      failure exactly when the data ends before either a zero byte or the
      cap is reached. */
  lemma {:induction false} ReadNullTerminatedStringSpec(data: seq<byte>, offset: nat, maxCount: nat)
    ensures ReadNullTerminatedString(data, offset, maxCount).Err?
        <==> 0 < maxCount && |data| < offset + maxCount && (offset < |data| ==> NoZeroIn(data, offset, |data|))
    ensures ReadNullTerminatedString(data, offset, maxCount).Err? ==>
        ReadNullTerminatedString(data, offset, maxCount).error.EndOfStream?
    ensures ReadNullTerminatedString(data, offset, maxCount).Ok? ==>
        IsCappedString(data, offset, maxCount, ReadNullTerminatedString(data, offset, maxCount).value)
    decreases maxCount
  {
    if maxCount > 0 && offset < |data| && data[offset] != 0 {
      ReadNullTerminatedStringSpec(data, offset + 1, maxCount - 1);
      var r := ReadNullTerminatedString(data, offset, maxCount);
      var rest := ReadNullTerminatedString(data, offset + 1, maxCount - 1);
      if rest.Ok? {
        assert r.value == [data[offset]] + rest.value;
        forall i | 0 <= i < |r.value|
          ensures offset + i < |data| && r.value[i] == data[offset + i]
        {
          if i > 0 {
            assert r.value[i] == rest.value[i - 1];
          }
        }
        assert IsCappedString(data, offset, maxCount, r.value);
      } else {
        assert NoZeroIn(data, offset + 1, |data|) ==> NoZeroIn(data, offset, |data|);
      }
    }
  }

  /** A zero byte within the first `maxCount` bytes: the result is exactly the bytes before the first one. */
  lemma StringEndsAtFirstZero(data: seq<byte>, offset: nat, maxCount: nat, k: nat)
    requires k < maxCount && offset + k < |data| && data[offset + k] == 0
    requires NoZeroIn(data, offset, offset + k)
    ensures ReadNullTerminatedString(data, offset, maxCount) == Ok(data[offset..offset + k])
  {
    ReadNullTerminatedStringSpec(data, offset, maxCount);
    var r := ReadNullTerminatedString(data, offset, maxCount);
    assert r.value == data[offset..offset + k];
  }

  /** No zero byte within the first `maxCount` bytes, all present: the result is exactly those bytes. */
  lemma StringStopsAtCap(data: seq<byte>, offset: nat, maxCount: nat)
    requires offset + maxCount <= |data|
    requires NoZeroIn(data, offset, offset + maxCount)
    ensures ReadNullTerminatedString(data, offset, maxCount) == Ok(data[offset..offset + maxCount])
  {
    ReadNullTerminatedStringSpec(data, offset, maxCount);
    var r := ReadNullTerminatedString(data, offset, maxCount);
    assert |r.value| == maxCount;
    assert r.value == data[offset..offset + maxCount];
  }

  /** The loop of the stream's string reader, as written: up to `maxCount`
      single-byte reads, stopping after a zero byte. `consumed` is how far
      the stream position moved. */
  method ReadNullTerminatedStringLoop(data: seq<byte>, offset: nat, maxCount: nat)
    returns (r: Result<seq<byte>>, consumed: nat)
    ensures r == ReadNullTerminatedString(data, offset, maxCount)
    ensures consumed <= maxCount
    ensures r.Ok? ==> consumed == if |r.value| < maxCount then |r.value| + 1 else maxCount
  {
    var str: seq<byte> := [];
    var i: nat := 0;
    assert Prepend(str, ReadNullTerminatedString(data, offset, maxCount)) == ReadNullTerminatedString(data, offset, maxCount) by {
      PrependEmpty(ReadNullTerminatedString(data, offset, maxCount));
    }
    while i < maxCount
      invariant i <= maxCount
      invariant |str| == i
      invariant ReadNullTerminatedString(data, offset, maxCount)
             == Prepend(str, ReadNullTerminatedString(data, offset + i, maxCount - i))
      decreases maxCount - i
    {
      if offset + i >= |data| {
        return Err(EndOfStream(offset + i, 1)), i;
      }
      var c := data[offset + i];
      if c == 0 {
        assert str + [] == str;
        return Ok(str), i + 1;
      }
      PrependStep(data, offset + i, maxCount - i, str);
      str := str + [c];
      i := i + 1;
    }
    assert str + [] == str;
    return Ok(str), i;
  }

  /** Put `prefix` in front of a successful read. */
  function Prepend(prefix: seq<byte>, r: Result<seq<byte>>): Result<seq<byte>>
  {
    match r
    case Ok(s) => Ok(prefix + s)
    case Err(e) => Err(e)
  }

  lemma PrependEmpty(r: Result<seq<byte>>)
    ensures Prepend([], r) == r
  {
    if r.Ok? {
      assert [] + r.value == r.value;
    }
  }

  /** One non-zero byte moves from the unread part to the prefix. */
  lemma PrependStep(data: seq<byte>, offset: nat, maxCount: nat, prefix: seq<byte>)
    requires 0 < maxCount && offset < |data| && data[offset] != 0
    ensures Prepend(prefix, ReadNullTerminatedString(data, offset, maxCount))
         == Prepend(prefix + [data[offset]], ReadNullTerminatedString(data, offset + 1, maxCount - 1))
  {
    var rest := ReadNullTerminatedString(data, offset + 1, maxCount - 1);
    if rest.Ok? {
      assert prefix + ([data[offset]] + rest.value) == (prefix + [data[offset]]) + rest.value;
    }
  }
}

=== FILE: bytes.dfy ===
/** Bytes, fixed-width unsigned integers and little-endian decoding.

    The reader works on a file as a sequence of bytes and reads every
    integer field as little-endian. C++ `uint32_t` arithmetic wraps modulo
    2^32; that wrap-around is written out here.
 */
module Bytes {

  type byte = b: int | 0 <= b < 0x100
  type u16 = x: int | 0 <= x < 0x1_0000
  type u32 = x: int | 0 <= x < 0x1_0000_0000

  const U32Modulus: int := 0x1_0000_0000

  /** 256^n: the number of distinct values an n-byte field can hold. */
  function Pow256(n: nat): (r: int)
    ensures r >= 1
  {
    if n == 0 then 1 else 256 * Pow256(n - 1)
  }

  lemma Pow256Values()
    ensures Pow256(1) == 0x100 && Pow256(2) == 0x1_0000 && Pow256(4) == 0x1_0000_0000
  {
  }

  /** The unsigned value of a little-endian byte string. */
  function DecodeLE(s: seq<byte>): (v: nat)
    ensures v < Pow256(|s|)
  {
    if |s| == 0 then 0 else s[0] + 256 * DecodeLE(s[1..])
  }

  /** The two-byte little-endian field at byte `at`. */
  function U16At(s: seq<byte>, at: nat): (v: u16)
    requires at + 2 <= |s|
    ensures v == DecodeLE(s[at..at + 2])
  {
    Pow256Values();
    DecodeLE(s[at..at + 2])
  }

  /** The four-byte little-endian field at byte `at`. */
  function U32At(s: seq<byte>, at: nat): (v: u32)
    requires at + 4 <= |s|
    ensures v == DecodeLE(s[at..at + 4])
  {
    Pow256Values();
    DecodeLE(s[at..at + 4])
  }

  /** The `width`-byte little-endian representation of `v` (its low `width` bytes). */
  function EncodeLE(v: nat, width: nat): (s: seq<byte>)
    ensures |s| == width
  {
    if width == 0 then [] else [v % 256] + EncodeLE(v / 256, width - 1)
  }

  lemma {:induction false} DecodeEncodeLE(v: nat, width: nat)
    requires v < Pow256(width)
    ensures DecodeLE(EncodeLE(v, width)) == v
  {
    if width > 0 {
      var s := EncodeLE(v, width);
      assert s[1..] == EncodeLE(v / 256, width - 1);
      DecodeEncodeLE(v / 256, width - 1);
    }
  }

  lemma {:induction false} EncodeDecodeLE(s: seq<byte>)
    ensures EncodeLE(DecodeLE(s), |s|) == s
  {
    if |s| > 0 {
      var v := DecodeLE(s);
      assert v % 256 == s[0];
      assert v / 256 == DecodeLE(s[1..]);
      EncodeDecodeLE(s[1..]);
    }
  }

  /** `uint32_t` addition. */
  function Add32(a: u32, b: u32): (r: u32)
    ensures (r - a - b) % U32Modulus == 0
  {
    (a + b) % U32Modulus
  }

  /** `uint32_t` subtraction. */
  function Sub32(a: u32, b: u32): (r: u32)
    ensures (r - a + b) % U32Modulus == 0
  {
    (a - b) % U32Modulus
  }

  /** Subtracting what was added gives back the original value, wrap-around included. */
  lemma SubAdd32(a: u32, b: u32)
    ensures Sub32(Add32(a, b), b) == a
  {
  }

  /** A single byte decodes to itself. */
  lemma DecodeLEOne(s: seq<byte>)
    requires |s| == 1
    ensures DecodeLE(s) == s[0]
  {
    assert DecodeLE(s[1..]) == 0;
  }

  /** Adding back what was subtracted gives the original value, wrap-around included. */
  lemma AddSub32(a: u32, b: u32)
    ensures Add32(Sub32(a, b), b) == a
  {
  }

  /** Reinterpreting the bits of a `uint32_t` as a two's-complement `int`. */
  function ToInt32(u: u32): (i: int)
    ensures -0x8000_0000 <= i < 0x8000_0000
    ensures i % U32Modulus == u
  {
    if u < 0x8000_0000 then u else u - U32Modulus
  }

  /** The bits of a two's-complement `int` read as a `uint32_t`. */
  function FromInt32(i: int): (u: u32)
    requires -0x8000_0000 <= i < 0x8000_0000
    ensures ToInt32(u) == i
  {
    if i >= 0 then i else i + U32Modulus
  }
}

=== FILE: export_reader.dfy ===
/** The PE32 export-table reader.

    Construction validates the headers in a fixed order (signature, DLL
    flag, PE32 magic), reads the data directories and the section headers
    that follow them, and, when data directory 0 names an export directory,
    loads the export name table and the export address table. Every RVA met
    during construction is translated with the one section that contains the
    export directory; a query translates the RVA it looks up with whichever
    section contains that RVA.

    The reader is an immutable value: queries return a result and never a
    new reader, so the section list and both export tables are the same
    before and after any query.
 */
module ExportReader {
  import opened Bytes
  import opened Results
  import opened PeStructures
  import opened ByteStream

  // ---------------------------------------------------------------- sections and RVAs

  /** Whether `section` covers `rva`: from its virtual address up to and
      including virtual address plus virtual size, that sum taken in
      `uint32_t` and so able to wrap. */
  predicate SectionContainsRva(section: SectionTable, rva: u32)
  {
    section.virtualAddress <= rva <= Add32(section.virtualAddress, section.virtualSize)
  }

  /** Section `i` covers `rva` and no section before it does. */
  predicate IsFirstContaining(sections: seq<SectionTable>, rva: u32, i: int)
  {
    && 0 <= i < |sections|
    && SectionContainsRva(sections[i], rva)
    && forall j :: 0 <= j < i ==> !SectionContainsRva(sections[j], rva)
  }

  /** The first section, in file order, that covers `rva`. */
  function FindSectionTableContainingRva(sections: seq<SectionTable>, rva: u32): (r: Result<SectionTable>)
    ensures r.Ok? <==> exists i :: 0 <= i < |sections| && SectionContainsRva(sections[i], rva)
    ensures r.Ok? ==> exists i :: IsFirstContaining(sections, rva, i) && sections[i] == r.value
    ensures r.Err? ==> r.error == RvaNotMapped(rva)
  {
    if |sections| == 0 then Err(RvaNotMapped(rva))
    else if SectionContainsRva(sections[0], rva) then
      assert IsFirstContaining(sections, rva, 0);
      Ok(sections[0])
    else
      var r := FindSectionTableContainingRva(sections[1..], rva);
      assert forall i :: 1 <= i < |sections| ==> sections[i] == sections[1..][i - 1];
      if r.Ok? then
        var k :| IsFirstContaining(sections[1..], rva, k) && sections[1..][k] == r.value;
        assert IsFirstContaining(sections, rva, k + 1) by {
          forall j | 0 <= j < k + 1
            ensures !SectionContainsRva(sections[j], rva)
          {
            if j > 0 {
              assert sections[j] == sections[1..][j - 1];
            }
          }
        }
        r
      else
        r
  }

  /** Translate an RVA into a file offset within `section`: the RVA's
      distance from the section's virtual address added to the section's
      file offset, both steps in `uint32_t`. */
  function RvaToFileOffset(rva: u32, section: SectionTable): (offset: u32)
    ensures (offset - rva + section.virtualAddress - section.pointerToRawData) % U32Modulus == 0
  {
    Add32(Sub32(rva, section.virtualAddress), section.pointerToRawData)
  }

  /** The inverse translation, from a file offset back to an RVA. */
  function FileOffsetToRva(offset: u32, section: SectionTable): (rva: u32)
    ensures (rva - offset + section.pointerToRawData - section.virtualAddress) % U32Modulus == 0
  {
    Add32(Sub32(offset, section.pointerToRawData), section.virtualAddress)
  }

  /** Translating to a file offset and back gives the RVA again, for every
      RVA and section, wrap-around included. */
  lemma RvaToFileOffsetRoundTrip(rva: u32, section: SectionTable)
    ensures FileOffsetToRva(RvaToFileOffset(rva, section), section) == rva
  {
    var d := Sub32(rva, section.virtualAddress);
    SubAdd32(d, section.pointerToRawData);
    AddSub32(rva, section.virtualAddress);
  }

  /** Inside a section that does not wrap, the translation is the plain
      difference: `rva - virtualAddress + pointerToRawData`, no modulus. */
  lemma RvaToFileOffsetWithinSection(rva: u32, section: SectionTable)
    requires SectionContainsRva(section, rva)
    requires section.virtualAddress + section.virtualSize < U32Modulus
    requires rva - section.virtualAddress + section.pointerToRawData < U32Modulus
    ensures RvaToFileOffset(rva, section) == rva - section.virtualAddress + section.pointerToRawData
  {
  }

  // ---------------------------------------------------------------- headers

  /** Where the file stores the offset of its PE signature. */
  const SignaturePointerOffset: nat := 0x3C

  /** The PE signature: 'P', 'E', then two zero bytes. */
  const PeSignature: seq<byte> := [0x50, 0x45, 0, 0]

  /** IMAGE_FILE_DLL, the COFF characteristics flag of a DLL. */
  const ImageFileDll: u16 := 0x2000

  /** The optional-header magic of a PE32 (32-bit) image. */
  const Pe32Magic: u16 := 0x10B

  /** The signature offset stored at 0x3C, when the file is long enough to hold it. */
  function SignatureOffset(data: seq<byte>): u32
    requires SignaturePointerOffset + 4 <= |data|
  {
    Pow256Values();
    DecodeLE(data[SignaturePointerOffset..SignaturePointerOffset + 4])
  }

  /** Read the signature offset at 0x3C, then the four bytes there, and
      compare them with the PE signature. Either read can run off the end;
      the offset itself is not checked against the file size. */
  function IsPortableExecutableFile(data: seq<byte>): (r: Result<bool>)
    ensures r.Ok? <==> SignaturePointerOffset + 4 <= |data| && SignatureOffset(data) + 4 <= |data|
    ensures r.Ok? ==> (r.value <==> data[SignatureOffset(data)..SignatureOffset(data) + 4] == PeSignature)
    ensures r.Err? ==> r.error.EndOfStream?
  {
    var offset :- ReadU32(data, SignaturePointerOffset);
    var signature :- ReadBytes(data, offset, 4);
    Ok(signature == PeSignature)
  }

  /** Whether the IMAGE_FILE_DLL bit is set: the bitwise and of the
      characteristics with 0x2000 equals 0x2000. */
  function IsDll(coff: CoffHeader): (r: bool)
    ensures r <==> (coff.characteristics / 0x2000) % 2 == 1
  {
    DllBit(coff.characteristics);
    (coff.characteristics as bv16) & 0x2000 == 0x2000
  }

  /** Bit 13 of a 16-bit value, by masking and by arithmetic. */
  lemma DllBit(c: u16)
    ensures ((c as bv16) & 0x2000 == 0x2000) <==> (c / 0x2000) % 2 == 1
  {
  }

  /** The header part of a PE32 DLL: its COFF header, its optional
      header, its data directories and its section headers. */
  datatype Headers = Headers(
    coff: CoffHeader,
    image: Image32Bit,
    dataDirectories: seq<ImageDataDirectory>,
    sectionTables: seq<SectionTable>)

  /** Data directory `i` of those packed from `offset` on. */
  function DataDirectoryAt(data: seq<byte>, offset: nat, i: nat): ImageDataDirectory
    requires offset + RecordStart(i, ImageDataDirectorySize) + ImageDataDirectorySize <= |data|
  {
    DecodeImageDataDirectory(RecordAt(data, offset, i, ImageDataDirectorySize))
  }

  /** Section header `i` of those packed from `offset` on. */
  function SectionTableAt(data: seq<byte>, offset: nat, i: nat): SectionTable
    requires offset + RecordStart(i, SectionTableSize) + SectionTableSize <= |data|
  {
    DecodeSectionTable(RecordAt(data, offset, i, SectionTableSize))
  }

  /** Read `count` data directories packed from `offset` on, in one read. */
  function ReadDataDirectories(data: seq<byte>, offset: nat, count: nat): (r: Result<seq<ImageDataDirectory>>)
    ensures r.Ok? <==> count == 0 || offset + count * ImageDataDirectorySize <= |data|
    ensures r.Ok? ==> |r.value| == count
    ensures r.Ok? ==> forall i :: 0 <= i < count ==>
      && offset + RecordStart(i, ImageDataDirectorySize) + ImageDataDirectorySize <= |data|
      && r.value[i] == DataDirectoryAt(data, offset, i)
    ensures r.Err? ==> r.error == EndOfStream(offset, count * ImageDataDirectorySize)
  {
    var _ :- ReadBytes(data, offset, count * ImageDataDirectorySize);
    RecordsWithin(count, ImageDataDirectorySize);
    Ok(seq(count, i requires 0 <= i < count && offset + count * ImageDataDirectorySize <= |data| =>
      DataDirectoryAt(data, offset, i)))
  }

  /** Read `count` section headers packed from `offset` on, in one read. */
  function ReadSectionTables(data: seq<byte>, offset: nat, count: nat): (r: Result<seq<SectionTable>>)
    ensures r.Ok? <==> count == 0 || offset + count * SectionTableSize <= |data|
    ensures r.Ok? ==> |r.value| == count
    ensures r.Ok? ==> forall i :: 0 <= i < count ==>
      && offset + RecordStart(i, SectionTableSize) + SectionTableSize <= |data|
      && r.value[i] == SectionTableAt(data, offset, i)
    ensures r.Err? ==> r.error == EndOfStream(offset, count * SectionTableSize)
  {
    var _ :- ReadBytes(data, offset, count * SectionTableSize);
    RecordsWithin(count, SectionTableSize);
    Ok(seq(count, i requires 0 <= i < count && offset + count * SectionTableSize <= |data| =>
      SectionTableAt(data, offset, i)))
  }

  /** Where the COFF header starts: right after the signature. */
  function CoffOffset(data: seq<byte>): nat
    requires SignaturePointerOffset + 4 <= |data|
  {
    SignatureOffset(data) + |PeSignature|
  }

  /** The COFF header at `coffAt` and the optional header right after
      it, checked in that order: the DLL flag first, then the PE32 magic. */
  function ReadCoffAndImage(data: seq<byte>, coffAt: nat): (r: Result<(CoffHeader, Image32Bit)>)
    ensures r.Ok? ==> CoffAndImageAt(data, coffAt, r.value.0, r.value.1)
    ensures coffAt + CoffHeaderSize <= |data| ==>
      var coff := DecodeCoffHeader(data[coffAt..coffAt + CoffHeaderSize]);
      !IsDll(coff) ==> r == Err(NotADynamicLibrary(coff.characteristics))
    ensures coffAt + CoffHeaderSize + Image32BitSize <= |data| ==>
      var imageAt := coffAt + CoffHeaderSize;
      var coff := DecodeCoffHeader(data[coffAt..imageAt]);
      var image := DecodeImage32Bit(data[imageAt..imageAt + Image32BitSize]);
      IsDll(coff) && image.magic != Pe32Magic ==> r == Err(UnsupportedArchitecture(image.magic))
    ensures |data| < coffAt + CoffHeaderSize ==> r == Err(EndOfStream(coffAt, CoffHeaderSize))
    ensures coffAt + CoffHeaderSize <= |data| < coffAt + CoffHeaderSize + Image32BitSize ==>
      var coff := DecodeCoffHeader(data[coffAt..coffAt + CoffHeaderSize]);
      IsDll(coff) ==> r == Err(EndOfStream(coffAt + CoffHeaderSize, Image32BitSize))
    ensures r.Err? ==> r.error.EndOfStream? || r.error.NotADynamicLibrary? || r.error.UnsupportedArchitecture?
  {
    var coffBytes :- ReadBytes(data, coffAt, CoffHeaderSize);
    var coff := DecodeCoffHeader(coffBytes);
    if !IsDll(coff) then Err(NotADynamicLibrary(coff.characteristics))
    else
      var imageBytes :- ReadBytes(data, coffAt + CoffHeaderSize, Image32BitSize);
      var image := DecodeImage32Bit(imageBytes);
      if image.magic != Pe32Magic then Err(UnsupportedArchitecture(image.magic))
      else Ok((coff, image))
  }

  /** The data directories the optional header announces, packed from
      `directoriesAt` on, then the section headers the COFF header
      announces, packed right after them. */
  function ReadTables(data: seq<byte>, directoriesAt: nat, coff: CoffHeader, image: Image32Bit): (r: Result<Headers>)
    ensures r.Ok? ==> r.value.coff == coff && r.value.image == image
    ensures r.Ok? ==> TablesAt(data, directoriesAt, r.value)
    ensures var sectionsAt := directoriesAt + image.numberOfRvaAndSizes * ImageDataDirectorySize;
      r.Ok? <==>
        && (image.numberOfRvaAndSizes == 0 || sectionsAt <= |data|)
        && (coff.numberOfSections == 0 || sectionsAt + coff.numberOfSections * SectionTableSize <= |data|)
    ensures image.numberOfRvaAndSizes > 0 && |data| < directoriesAt + image.numberOfRvaAndSizes * ImageDataDirectorySize ==>
      r == Err(EndOfStream(directoriesAt, image.numberOfRvaAndSizes * ImageDataDirectorySize))
    ensures r.Err? ==> r.error.EndOfStream?
  {
    var directories :- ReadDataDirectories(data, directoriesAt, image.numberOfRvaAndSizes);
    var sectionsAt := directoriesAt + image.numberOfRvaAndSizes * ImageDataDirectorySize;
    var sections :- ReadSectionTables(data, sectionsAt, coff.numberOfSections);
    Ok(Headers(coff, image, directories, sections))
  }

  /** The validation and header reads of the constructor, in its order:
      signature, COFF header, DLL flag, optional header, PE32 magic, data
      directories, section headers. Each structure starts right where the
      one before it ends. */
  function ReadHeaders(data: seq<byte>): (r: Result<Headers>)
    ensures r.Ok? ==> HeadersAt(data, r.value)
    ensures r.Err? ==>
      r.error.EndOfStream? || r.error.NotPortableExecutable? || r.error.NotADynamicLibrary? || r.error.UnsupportedArchitecture?
  {
    var isPe :- IsPortableExecutableFile(data);
    if !isPe then Err(NotPortableExecutable)
    else
      var coffAt := CoffOffset(data);
      var headers :- ReadCoffAndImage(data, coffAt);
      ReadTables(data, coffAt + CoffHeaderSize + Image32BitSize, headers.0, headers.1)
  }

  /** At `coffAt` sits `coff`, with the DLL flag set, and right after it
      `image`, with the PE32 magic. */
  ghost predicate CoffAndImageAt(data: seq<byte>, coffAt: nat, coff: CoffHeader, image: Image32Bit)
  {
    var imageAt := coffAt + CoffHeaderSize;
    && imageAt + Image32BitSize <= |data|
    && coff == DecodeCoffHeader(data[coffAt..imageAt])
    && IsDll(coff)
    && image == DecodeImage32Bit(data[imageAt..imageAt + Image32BitSize])
    && image.magic == Pe32Magic
  }

  /** From `directoriesAt` on sit exactly `numberOfRvaAndSizes` data
      directories and right after them exactly `numberOfSections` section
      headers, as `h` holds them. */
  ghost predicate TablesAt(data: seq<byte>, directoriesAt: nat, h: Headers)
  {
    var sectionsAt := directoriesAt + |h.dataDirectories| * ImageDataDirectorySize;
    && |h.dataDirectories| == h.image.numberOfRvaAndSizes
    && |h.sectionTables| == h.coff.numberOfSections
    && (forall i :: 0 <= i < |h.dataDirectories| ==>
          && directoriesAt + RecordStart(i, ImageDataDirectorySize) + ImageDataDirectorySize <= |data|
          && h.dataDirectories[i] == DataDirectoryAt(data, directoriesAt, i))
    && (forall i :: 0 <= i < |h.sectionTables| ==>
          && sectionsAt + RecordStart(i, SectionTableSize) + SectionTableSize <= |data|
          && h.sectionTables[i] == SectionTableAt(data, sectionsAt, i))
  }

  /** `h` is what the file holds at the places the headers of a PE32 DLL
      sit: the signature at the offset stored at 0x3C, the COFF header
      right after it with the DLL flag set, the optional header right
      after that with the PE32 magic, then exactly `numberOfRvaAndSizes`
      data directories and exactly `numberOfSections` section headers,
      all packed back to back. */
  ghost predicate HeadersAt(data: seq<byte>, h: Headers)
  {
    && SignaturePointerOffset + 4 <= |data|
    && var coffAt := CoffOffset(data);
    && coffAt <= |data|
    && data[SignatureOffset(data)..coffAt] == PeSignature
    && CoffAndImageAt(data, coffAt, h.coff, h.image)
    && TablesAt(data, coffAt + CoffHeaderSize + Image32BitSize, h)
  }

  /** The checks happen in the constructor's order, and each failure stops
      the parse there: a failed signature read or a wrong signature, then a
      COFF header without the DLL flag, then an optional header whose magic
      is not PE32, whatever the bytes after it hold. */
  lemma HeaderChecksInOrder(data: seq<byte>)
    ensures IsPortableExecutableFile(data).Err? ==>
      ReadHeaders(data) == Err(IsPortableExecutableFile(data).error)
    ensures IsPortableExecutableFile(data) == Ok(false) ==>
      ReadHeaders(data) == Err(NotPortableExecutable)
    ensures IsPortableExecutableFile(data) == Ok(true) && CoffOffset(data) + CoffHeaderSize <= |data| ==>
      var coff := DecodeCoffHeader(data[CoffOffset(data)..CoffOffset(data) + CoffHeaderSize]);
      !IsDll(coff) ==> ReadHeaders(data) == Err(NotADynamicLibrary(coff.characteristics))
    ensures IsPortableExecutableFile(data) == Ok(true) ==>
      var coffAt := CoffOffset(data);
      var imageAt := coffAt + CoffHeaderSize;
      imageAt + Image32BitSize <= |data| ==>
      var coff := DecodeCoffHeader(data[coffAt..imageAt]);
      var image := DecodeImage32Bit(data[imageAt..imageAt + Image32BitSize]);
      IsDll(coff) && image.magic != Pe32Magic ==> ReadHeaders(data) == Err(UnsupportedArchitecture(image.magic))
    ensures IsPortableExecutableFile(data) == Ok(true) && |data| < CoffOffset(data) + CoffHeaderSize ==>
      ReadHeaders(data) == Err(EndOfStream(CoffOffset(data), CoffHeaderSize))
    ensures IsPortableExecutableFile(data) == Ok(true) ==>
      var coffAt := CoffOffset(data);
      var imageAt := coffAt + CoffHeaderSize;
      imageAt <= |data| < imageAt + Image32BitSize ==>
      IsDll(DecodeCoffHeader(data[coffAt..imageAt])) ==> ReadHeaders(data) == Err(EndOfStream(imageAt, Image32BitSize))
  {
  }

  /** Data directories that sit at `offset` are the ones read from there. */
  lemma DataDirectoriesDetermined(data: seq<byte>, offset: nat, directories: seq<ImageDataDirectory>)
    requires forall i :: 0 <= i < |directories| ==>
      && offset + RecordStart(i, ImageDataDirectorySize) + ImageDataDirectorySize <= |data|
      && directories[i] == DataDirectoryAt(data, offset, i)
    ensures ReadDataDirectories(data, offset, |directories|) == Ok(directories)
  {
    var n := |directories|;
    if n > 0 {
      assert offset + RecordStart(n - 1, ImageDataDirectorySize) + ImageDataDirectorySize
          == offset + n * ImageDataDirectorySize;
    }
    assert ReadDataDirectories(data, offset, n).value == directories;
  }

  /** Section headers that sit at `offset` are the ones read from there. */
  lemma SectionTablesDetermined(data: seq<byte>, offset: nat, sections: seq<SectionTable>)
    requires forall i :: 0 <= i < |sections| ==>
      && offset + RecordStart(i, SectionTableSize) + SectionTableSize <= |data|
      && sections[i] == SectionTableAt(data, offset, i)
    ensures ReadSectionTables(data, offset, |sections|) == Ok(sections)
  {
    var m := |sections|;
    if m > 0 {
      assert offset + RecordStart(m - 1, SectionTableSize) + SectionTableSize
          == offset + m * SectionTableSize;
    }
    assert ReadSectionTables(data, offset, m).value == sections;
  }

  /** Tables that sit at `directoriesAt` are the ones read from there. */
  lemma TablesAtDetermines(data: seq<byte>, directoriesAt: nat, h: Headers)
    requires TablesAt(data, directoriesAt, h)
    ensures ReadTables(data, directoriesAt, h.coff, h.image) == Ok(h)
  {
    DataDirectoriesDetermined(data, directoriesAt, h.dataDirectories);
    SectionTablesDetermined(data, directoriesAt + |h.dataDirectories| * ImageDataDirectorySize, h.sectionTables);
  }

  /** The headers a file holds are the only ones it parses to: whenever
      `h` sits in `data` the way `HeadersAt` describes, the parse succeeds
      with exactly `h`. With the postcondition of `ReadHeaders` this makes
      `HeadersAt` a complete description of a successful header parse. */
  lemma HeadersAtDetermines(data: seq<byte>, h: Headers)
    requires HeadersAt(data, h)
    ensures ReadHeaders(data) == Ok(h)
  {
    var coffAt := CoffOffset(data);
    assert IsPortableExecutableFile(data) == Ok(true);
    assert ReadCoffAndImage(data, coffAt) == Ok((h.coff, h.image));
    TablesAtDetermines(data, coffAt + CoffHeaderSize + Image32BitSize, h);
  }

  // ---------------------------------------------------------------- export tables

  /** The export name table and the export address table, position `i` of
      one belonging to position `i` of the other. */
  datatype Exports = Exports(names: seq<seq<byte>>, addresses: seq<u32>)

  /** The string a name pointer designates, translated with `section`. */
  function NameAt(data: seq<byte>, pointer: u32, section: SectionTable, stringCap: nat): (r: Result<seq<byte>>)
    ensures r.Err? ==> r.error.EndOfStream?
  {
    ReadNullTerminatedStringSpec(data, RvaToFileOffset(pointer, section), stringCap);
    ReadNullTerminatedString(data, RvaToFileOffset(pointer, section), stringCap)
  }

  /** Name `i` is the first whose read fails. */
  predicate IsFirstFailingName(data: seq<byte>, pointers: seq<u32>, section: SectionTable, stringCap: nat, i: int)
  {
    && 0 <= i < |pointers|
    && NameAt(data, pointers[i], section, stringCap).Err?
    && forall j :: 0 <= j < i ==> NameAt(data, pointers[j], section, stringCap).Ok?
  }

  /** Read the name each pointer designates, in pointer order, stopping at the first failure. */
  function ReadNames(data: seq<byte>, pointers: seq<u32>, section: SectionTable, stringCap: nat): (r: Result<seq<seq<byte>>>)
    ensures r.Ok? <==> forall i :: 0 <= i < |pointers| ==> NameAt(data, pointers[i], section, stringCap).Ok?
    ensures r.Ok? ==> |r.value| == |pointers|
    ensures r.Ok? ==> forall i :: 0 <= i < |pointers| ==> NameAt(data, pointers[i], section, stringCap) == Ok(r.value[i])
    ensures r.Err? ==> exists i ::
      IsFirstFailingName(data, pointers, section, stringCap, i) && r.error == NameAt(data, pointers[i], section, stringCap).error
  {
    if |pointers| == 0 then Ok([])
    else
      var first := NameAt(data, pointers[0], section, stringCap);
      if first.Err? then
        assert IsFirstFailingName(data, pointers, section, stringCap, 0);
        Err(first.error)
      else
        var rest := ReadNames(data, pointers[1..], section, stringCap);
        assert forall i :: 1 <= i < |pointers| ==> pointers[i] == pointers[1..][i - 1];
        if rest.Err? then
          var k :| IsFirstFailingName(data, pointers[1..], section, stringCap, k)
            && rest.error == NameAt(data, pointers[1..][k], section, stringCap).error;
          assert IsFirstFailingName(data, pointers, section, stringCap, k + 1) by {
            forall j | 0 <= j < k + 1
              ensures NameAt(data, pointers[j], section, stringCap).Ok?
            {
              if j > 0 {
                assert pointers[j] == pointers[1..][j - 1];
              }
            }
          }
          Err(rest.error)
        else
          var names := [first.value] + rest.value;
          assert forall i :: 1 <= i < |pointers| ==> names[i] == rest.value[i - 1];
          Ok(names)
  }

  /** Read `count` name pointers at the translation of `rva`, then the
      name each designates, every translation with the one `section`. */
  function LoadNameTable(data: seq<byte>, rva: u32, section: SectionTable, count: nat, stringCap: nat): (r: Result<seq<seq<byte>>>)
    ensures ReadU32Array(data, RvaToFileOffset(rva, section), count).Err? ==> r.Err?
    ensures r.Ok? ==> |r.value| == count
    ensures r.Ok? ==> var pointerAt := RvaToFileOffset(rva, section);
      forall i :: 0 <= i < count ==>
        && pointerAt + i * 4 + 4 <= |data|
        && NameAt(data, DecodeLE(data[pointerAt + i * 4..pointerAt + i * 4 + 4]), section, stringCap) == Ok(r.value[i])
    ensures var pointerAt := RvaToFileOffset(rva, section);
      r.Ok? <==>
        && (count == 0 || pointerAt + count * 4 <= |data|)
        && forall i :: 0 <= i < count ==>
             NameAt(data, DecodeLE(data[pointerAt + i * 4..pointerAt + i * 4 + 4]), section, stringCap).Ok?
    ensures r.Err? ==> r.error.EndOfStream?
  {
    var pointers :- ReadU32Array(data, RvaToFileOffset(rva, section), count);
    ReadNames(data, pointers, section, stringCap)
  }

  /** Whether data directory 0 exists and names an export directory. */
  predicate HasExportDirectory(h: Headers)
  {
    |h.dataDirectories| > 0 && h.dataDirectories[0].virtualAddress != 0
  }

  /** `e` is what the export directory at `rva` holds when every RVA in it
      is translated with `section`: as many names as the directory has
      name pointers, each the string its pointer designates, in pointer
      order; an ordinal table of that length that can be read; and an
      address table of that length, entry `i` read from position `i`. */
  ghost predicate ExportsLoadedFrom(data: seq<byte>, rva: u32, section: SectionTable, stringCap: nat, e: Exports)
  {
    var tableAt := RvaToFileOffset(rva, section);
    && tableAt + ExportDirectoryTableSize <= |data|
    && var table := DecodeExportDirectoryTable(data[tableAt..tableAt + ExportDirectoryTableSize]);
    var pointerAt := RvaToFileOffset(table.namePointerRva, section);
    var ordinalAt := RvaToFileOffset(table.ordinalTableRva, section);
    var addressAt := RvaToFileOffset(table.exportAddressTableRva, section);
    && |e.names| == table.numberOfNamePointers
    && |e.addresses| == |e.names|
    && (forall i :: 0 <= i < |e.names| ==>
          && pointerAt + i * 4 + 4 <= |data|
          && NameAt(data, DecodeLE(data[pointerAt + i * 4..pointerAt + i * 4 + 4]), section, stringCap) == Ok(e.names[i]))
    && ReadU16Array(data, ordinalAt, |e.names|).Ok?
    && (forall i :: 0 <= i < |e.addresses| ==>
          && addressAt + i * 4 + 4 <= |data|
          && e.addresses[i] == DecodeLE(data[addressAt + i * 4..addressAt + i * 4 + 4]))
  }

  /** Read the export directory at `rva` and the tables it names, every
      RVA translated with `section`. The ordinal table is read only for the
      failure a short read causes; both it and the address table are sized
      by the number of names. */
  function LoadExportsFrom(data: seq<byte>, rva: u32, section: SectionTable, stringCap: nat): (r: Result<Exports>)
    ensures r.Ok? ==> ExportsLoadedFrom(data, rva, section, stringCap, r.value)
    ensures OrdinalReadFails(data, rva, section, stringCap) ==> r.Err?
    ensures r.Err? ==> r.error.EndOfStream?
  {
    var tableBytes :- ReadBytes(data, RvaToFileOffset(rva, section), ExportDirectoryTableSize);
    var table := DecodeExportDirectoryTable(tableBytes);
    var names :- LoadNameTable(data, table.namePointerRva, section, table.numberOfNamePointers, stringCap);
    var _ :- ReadU16Array(data, RvaToFileOffset(table.ordinalTableRva, section), |names|);
    var addresses :- ReadU32Array(data, RvaToFileOffset(table.exportAddressTableRva, section), |names|);
    Ok(Exports(names, addresses))
  }

  /** The export directory and the names load, but the ordinal table
      after them cannot be read in full. */
  predicate OrdinalReadFails(data: seq<byte>, rva: u32, section: SectionTable, stringCap: nat)
  {
    var tableAt := RvaToFileOffset(rva, section);
    && tableAt + ExportDirectoryTableSize <= |data|
    && var table := DecodeExportDirectoryTable(data[tableAt..tableAt + ExportDirectoryTableSize]);
    var names := LoadNameTable(data, table.namePointerRva, section, table.numberOfNamePointers, stringCap);
    && names.Ok?
    && ReadU16Array(data, RvaToFileOffset(table.ordinalTableRva, section), |names.value|).Err?
  }

  /** Exports that the directory at `rva` holds are exactly what loading
      it yields: the description determines the result. */
  lemma ExportsLoadedFromDetermines(data: seq<byte>, rva: u32, section: SectionTable, stringCap: nat, e: Exports)
    requires ExportsLoadedFrom(data, rva, section, stringCap, e)
    ensures LoadExportsFrom(data, rva, section, stringCap) == Ok(e)
  {
    var tableAt := RvaToFileOffset(rva, section);
    var table := DecodeExportDirectoryTable(data[tableAt..tableAt + ExportDirectoryTableSize]);
    assert ReadBytes(data, tableAt, ExportDirectoryTableSize) == Ok(data[tableAt..tableAt + ExportDirectoryTableSize]);
    var count := table.numberOfNamePointers;
    var pointerAt := RvaToFileOffset(table.namePointerRva, section);
    var addressAt := RvaToFileOffset(table.exportAddressTableRva, section);
    if count > 0 {
      assert pointerAt + (count - 1) * 4 + 4 <= |data|;
      assert addressAt + (count - 1) * 4 + 4 <= |data|;
    }
    var names := LoadNameTable(data, table.namePointerRva, section, count, stringCap);
    assert names.Ok?;
    assert names.value == e.names by {
      assert forall i :: 0 <= i < count ==> Ok(names.value[i]) == Ok(e.names[i]);
    }
    var addresses := ReadU32Array(data, addressAt, count);
    assert addresses.Ok?;
    assert addresses.value == e.addresses;
  }

  /** The export part of the constructor. Data directory 0 must exist (the
      C++ code reads it unchecked); an export directory RVA of zero means no
      exports. Otherwise the section containing that RVA is found once and
      translates the directory, the name pointers, each name, the ordinal
      table and the address table. */
  function LoadExports(data: seq<byte>, h: Headers, stringCap: nat): (r: Result<Exports>)
    ensures |h.dataDirectories| == 0 ==> r == Err(MissingExportDirectoryEntry)
    ensures |h.dataDirectories| > 0 && h.dataDirectories[0].virtualAddress == 0 ==> r == Ok(Exports([], []))
    ensures r.Ok? ==> |r.value.names| == |r.value.addresses|
    ensures r.Ok? && HasExportDirectory(h) ==>
      var rva := h.dataDirectories[0].virtualAddress;
      && FindSectionTableContainingRva(h.sectionTables, rva).Ok?
      && ExportsLoadedFrom(data, rva, FindSectionTableContainingRva(h.sectionTables, rva).value, stringCap, r.value)
    ensures HasExportDirectory(h) ==>
      var rva := h.dataDirectories[0].virtualAddress;
      FindSectionTableContainingRva(h.sectionTables, rva).Err? ==> r == Err(RvaNotMapped(rva))
    ensures HasExportDirectory(h) && r.Err? ==>
      var rva := h.dataDirectories[0].virtualAddress;
      FindSectionTableContainingRva(h.sectionTables, rva).Ok? ==> r.error.EndOfStream?
  {
    if |h.dataDirectories| == 0 then Err(MissingExportDirectoryEntry)
    else
      var rva := h.dataDirectories[0].virtualAddress;
      if rva == 0 then Ok(Exports([], []))
      else
        var section :- FindSectionTableContainingRva(h.sectionTables, rva);
        LoadExportsFrom(data, rva, section, stringCap)
  }

  /** A section's range includes the address one past its last byte,
      `virtualAddress + virtualSize`. */
  lemma SectionBoundIsInclusive(section: SectionTable)
    requires section.virtualAddress + section.virtualSize < U32Modulus
    ensures SectionContainsRva(section, (section.virtualAddress + section.virtualSize) as u32)
  {
  }

  /** When `virtualAddress + virtualSize` wraps past 2^32 the upper bound
      falls below the lower one, and the section contains no RVA at all. */
  lemma WrappedSectionContainsNothing(section: SectionTable, rva: u32)
    requires section.virtualAddress + section.virtualSize >= U32Modulus
    ensures !SectionContainsRva(section, rva)
  {
  }

  /** A section mapped at 0x1000 whose bytes start at file offset 0x400. */
  function ExampleSection(): SectionTable
  {
    SectionTable([0x2E, 0x65, 0x64, 0x61, 0x74, 0x61, 0, 0], 0x200, 0x1000, 0x200, 0x400, 0, 0, 0, 0, 0x4000_0040)
  }

  /** RVA 0x1050 in that section is file offset 0x450; RVA 0x0FFF, just
      below it, translates with wrap-around to 0x3FF. */
  lemma RvaToFileOffsetExamples()
    ensures RvaToFileOffset(0x1050, ExampleSection()) == 0x450
    ensures RvaToFileOffset(0x0FFF, ExampleSection()) == 0x3FF
    ensures FindSectionTableContainingRva([ExampleSection()], 0x1200) == Ok(ExampleSection())
    ensures FindSectionTableContainingRva([ExampleSection()], 0x1201) == Err(RvaNotMapped(0x1201))
  {
  }

  // ---------------------------------------------------------------- the reader and its queries

  /** What the constructor keeps: the file, the cap of its string reads,
      the section headers and the two export tables. */
  datatype Reader = Reader(
    data: seq<byte>,
    stringCap: nat,
    sectionTables: seq<SectionTable>,
    exportNameTable: seq<seq<byte>>,
    exportAddressTable: seq<u32>)
  {
    /** One address per export name. */
    predicate Valid()
    {
      |exportNameTable| == |exportAddressTable|
    }
  }

  /** `reader` is what the constructor builds from `data` whose headers
      are `h`: the section headers of `h`, and either no exports (data
      directory 0 names none) or the export tables loaded through the
      first section containing the export directory. */
  ghost predicate BuiltFrom(data: seq<byte>, stringCap: nat, h: Headers, reader: Reader)
  {
    && reader.data == data
    && reader.stringCap == stringCap
    && reader.Valid()
    && reader.sectionTables == h.sectionTables
    && |h.dataDirectories| > 0
    && var rva := h.dataDirectories[0].virtualAddress;
    if rva == 0 then reader.exportNameTable == [] && reader.exportAddressTable == []
    else
      && FindSectionTableContainingRva(h.sectionTables, rva).Ok?
      && ExportsLoadedFrom(data, rva, FindSectionTableContainingRva(h.sectionTables, rva).value, stringCap,
                           Exports(reader.exportNameTable, reader.exportAddressTable))
  }

  /** The constructor: validate and read the headers, then load the exports. */
  function NewReader(data: seq<byte>, stringCap: nat): (r: Result<Reader>)
    ensures r.Ok? ==> ReadHeaders(data).Ok? && HeadersAt(data, ReadHeaders(data).value)
    ensures r.Ok? ==> BuiltFrom(data, stringCap, ReadHeaders(data).value, r.value)
    ensures ReadHeaders(data).Err? ==> r == Err(ReadHeaders(data).error)
    ensures ReadHeaders(data).Ok? && |ReadHeaders(data).value.dataDirectories| == 0 ==> r == Err(MissingExportDirectoryEntry)
    ensures ReadHeaders(data).Ok? && HasExportDirectory(ReadHeaders(data).value) ==>
      var h := ReadHeaders(data).value;
      var rva := h.dataDirectories[0].virtualAddress;
      FindSectionTableContainingRva(h.sectionTables, rva).Err? ==> r == Err(RvaNotMapped(rva))
    ensures ReadHeaders(data).Ok? && HasExportDirectory(ReadHeaders(data).value) && r.Err? ==>
      var h := ReadHeaders(data).value;
      var rva := h.dataDirectories[0].virtualAddress;
      FindSectionTableContainingRva(h.sectionTables, rva).Ok? ==> r.error.EndOfStream?
  {
    var h :- ReadHeaders(data);
    var exports :- LoadExports(data, h, stringCap);
    Ok(Reader(data, stringCap, h.sectionTables, exports.names, exports.addresses))
  }

  /** A file whose headers are `h` and a reader built from it as the
      constructor describes: the constructor yields exactly that reader. */
  lemma NewReaderDetermines(data: seq<byte>, stringCap: nat, h: Headers, reader: Reader)
    requires HeadersAt(data, h)
    requires BuiltFrom(data, stringCap, h, reader)
    ensures NewReader(data, stringCap) == Ok(reader)
  {
    HeadersAtDetermines(data, h);
    var rva := h.dataDirectories[0].virtualAddress;
    if rva != 0 {
      var section := FindSectionTableContainingRva(h.sectionTables, rva).value;
      ExportsLoadedFromDetermines(data, rva, section, stringCap, Exports(reader.exportNameTable, reader.exportAddressTable));
    }
  }

  /** The index of the first entry of the name table equal to `name`. */
  function GetExportOrdinal(exportNameTable: seq<seq<byte>>, name: seq<byte>): (r: Result<nat>)
    ensures r.Ok? <==> name in exportNameTable
    ensures r.Ok? ==> r.value < |exportNameTable| && exportNameTable[r.value] == name
    ensures r.Ok? ==> forall j :: 0 <= j < r.value ==> exportNameTable[j] != name
    ensures r.Err? ==> r.error == ExportNotFound(name)
  {
    if |exportNameTable| == 0 then Err(ExportNotFound(name))
    else if exportNameTable[0] == name then Ok(0)
    else
      var i :- GetExportOrdinal(exportNameTable[1..], name);
      assert exportNameTable[i + 1] == exportNameTable[1..][i];
      assert forall j :: 1 <= j < i + 1 ==> exportNameTable[j] == exportNameTable[1..][j - 1];
      Ok(i + 1)
  }

  /** Whether some entry of the name table equals `name`. */
  function DoesExportExist(exportNameTable: seq<seq<byte>>, name: seq<byte>): (r: bool)
    ensures r <==> GetExportOrdinal(exportNameTable, name).Ok?
  {
    name in exportNameTable
  }

  /** The file offset of the export called `name`: the address stored at
      the name's position, translated with the first section that contains
      it (found afresh for this RVA). */
  function GetExportedFileOffset(reader: Reader, name: seq<byte>): (r: Result<u32>)
    requires reader.Valid()
    ensures name !in reader.exportNameTable ==> r == Err(ExportNotFound(name))
    ensures r.Ok? ==> name in reader.exportNameTable
    ensures r.Ok? ==>
      var rva := reader.exportAddressTable[GetExportOrdinal(reader.exportNameTable, name).value];
      exists i :: IsFirstContaining(reader.sectionTables, rva, i)
        && FileOffsetToRva(r.value, reader.sectionTables[i]) == rva
    ensures name in reader.exportNameTable ==>
      var rva := reader.exportAddressTable[GetExportOrdinal(reader.exportNameTable, name).value];
      && (r.Ok? <==> exists i :: 0 <= i < |reader.sectionTables| && SectionContainsRva(reader.sectionTables[i], rva))
      && (r.Err? ==> r.error == RvaNotMapped(rva))
  {
    var ordinal :- GetExportOrdinal(reader.exportNameTable, name);
    var rva := reader.exportAddressTable[ordinal];
    var section :- FindSectionTableContainingRva(reader.sectionTables, rva);
    RvaToFileOffsetRoundTrip(rva, section);
    Ok(RvaToFileOffset(rva, section))
  }

  /** The string stored at the export called `name`. */
  function ReadExportString(reader: Reader, name: seq<byte>): (r: Result<seq<byte>>)
    requires reader.Valid()
    ensures name !in reader.exportNameTable ==> r == Err(ExportNotFound(name))
    ensures r.Ok? ==> GetExportedFileOffset(reader, name).Ok?
    ensures r.Ok? ==> IsCappedString(reader.data, GetExportedFileOffset(reader, name).value, reader.stringCap, r.value)
    ensures GetExportedFileOffset(reader, name).Err? ==> r == Err(GetExportedFileOffset(reader, name).error)
    ensures GetExportedFileOffset(reader, name).Ok? ==>
      var offset := GetExportedFileOffset(reader, name).value;
      r.Err? <==> && 0 < reader.stringCap
                  && |reader.data| < offset + reader.stringCap
                  && (offset < |reader.data| ==> NoZeroIn(reader.data, offset, |reader.data|))
  {
    var offset :- GetExportedFileOffset(reader, name);
    ReadNullTerminatedStringSpec(reader.data, offset, reader.stringCap);
    ReadNullTerminatedString(reader.data, offset, reader.stringCap)
  }

  /** The `size` bytes stored at the export called `name`, the raw
      representation of a trivially copyable value of that size. */
  function ReadExport(reader: Reader, name: seq<byte>, size: nat): (r: Result<seq<byte>>)
    requires reader.Valid()
    ensures name !in reader.exportNameTable ==> r == Err(ExportNotFound(name))
    ensures r.Ok? ==> GetExportedFileOffset(reader, name).Ok? && |r.value| == size
    ensures r.Ok? && size > 0 ==>
      var offset := GetExportedFileOffset(reader, name).value;
      offset + size <= |reader.data| && r.value == reader.data[offset..offset + size]
    ensures GetExportedFileOffset(reader, name).Ok? && r.Err? ==>
      r.error == EndOfStream(GetExportedFileOffset(reader, name).value, size)
    ensures GetExportedFileOffset(reader, name).Ok? ==>
      (r.Ok? <==> size == 0 || GetExportedFileOffset(reader, name).value + size <= |reader.data|)
    ensures GetExportedFileOffset(reader, name).Err? ==> r == Err(GetExportedFileOffset(reader, name).error)
  {
    var offset :- GetExportedFileOffset(reader, name);
    ReadBytes(reader.data, offset, size)
  }

  /** A file whose data directory 0 names no export directory yields a
      reader with empty export tables, in which no name exists. */
  lemma NoExportDirectoryMeansNoExports(data: seq<byte>, stringCap: nat, name: seq<byte>)
    requires ReadHeaders(data).Ok?
    requires |ReadHeaders(data).value.dataDirectories| > 0
    requires ReadHeaders(data).value.dataDirectories[0].virtualAddress == 0
    ensures NewReader(data, stringCap).Ok?
    ensures NewReader(data, stringCap).value.exportNameTable == []
    ensures !DoesExportExist(NewReader(data, stringCap).value.exportNameTable, name)
  {
  }
}

=== FILE: layout.dfy ===
/** Byte-packed structure layouts.

    Every on-disk structure the reader consumes is declared inside
    `#pragma pack(push, 1)`, so a structure is nothing but its fields'
    little-endian encodings laid end to end with no padding. A layout is
    the list of its fields' byte widths in declaration order; field `i`
    starts at the sum of the widths before it and the structure occupies
    the sum of all widths.
 */
module Layout {
  import opened Bytes

  /** Byte widths of a packed structure's fields, in declaration order. */
  type Widths = seq<nat>

  /** Byte offset of field `i`: the widths of the fields before it. */
  function Offset(w: Widths, i: nat): nat
    requires i <= |w|
  {
    if i == 0 then 0 else Offset(w, i - 1) + w[i - 1]
  }

  /** Size in bytes of the whole structure: the offset just past its last field. */
  function Size(w: Widths): nat
  {
    Offset(w, |w|)
  }

  /** Offsets never decrease from one field to a later one. */
  lemma {:induction false} OffsetMonotonic(w: Widths, i: nat, j: nat)
    requires i <= j <= |w|
    ensures Offset(w, i) <= Offset(w, j)
  {
    if i < j {
      OffsetMonotonic(w, i, j - 1);
    }
  }

  /** The offsets of the first `k` fields do not depend on the fields after them. */
  lemma {:induction false} OffsetOfPrefix(w: Widths, k: nat, i: nat)
    requires i <= k <= |w|
    ensures Offset(w[..k], i) == Offset(w, i)
  {
    if i > 0 {
      OffsetOfPrefix(w, k, i - 1);
    }
  }

  /** The bytes of field `i`: from its offset to the next field's offset. */
  function FieldBytes(s: seq<byte>, w: Widths, i: nat): (b: seq<byte>)
    requires |s| == Size(w) && i < |w|
    ensures |b| == w[i]
  {
    OffsetMonotonic(w, i + 1, |w|);
    s[Offset(w, i)..Offset(w, i + 1)]
  }

  /** Field values that fit their declared widths. */
  predicate Fits(f: seq<nat>, w: Widths)
  {
    |f| == |w| && forall i :: 0 <= i < |w| ==> f[i] < Pow256(w[i])
  }

  /** Decode every field of a structure from its bytes. */
  function DecodeFields(s: seq<byte>, w: Widths): (f: seq<nat>)
    requires |s| == Size(w)
    ensures Fits(f, w)
  {
    seq(|w|, i requires 0 <= i < |w| => DecodeLE(FieldBytes(s, w, i)))
  }

  /** Lay the encodings of the fields end to end, first field first. */
  function EncodeFields(f: seq<nat>, w: Widths): (s: seq<byte>)
    requires |f| == |w|
    ensures |s| == Size(w)
  {
    if |w| == 0 then []
    else
      var n := |w| - 1;
      OffsetOfPrefix(w, n, n);
      EncodeFields(f[..n], w[..n]) + EncodeLE(f[n], w[n])
  }

  /** In an encoded structure, field `i` holds exactly the encoding of value `i`. */
  lemma {:induction false} FieldBytesOfEncode(f: seq<nat>, w: Widths, i: nat)
    requires |f| == |w| && i < |w|
    ensures FieldBytes(EncodeFields(f, w), w, i) == EncodeLE(f[i], w[i])
  {
    var n := |w| - 1;
    var s := EncodeFields(f, w);
    var front := EncodeFields(f[..n], w[..n]);
    OffsetOfPrefix(w, n, n);
    assert s == front + EncodeLE(f[n], w[n]);
    if i < n {
      OffsetMonotonic(w, i + 1, n);
      OffsetOfPrefix(w, n, i);
      OffsetOfPrefix(w, n, i + 1);
      FieldBytesOfEncode(f[..n], w[..n], i);
      assert FieldBytes(s, w, i) == FieldBytes(front, w[..n], i);
    }
  }

  /** A field whose value fits its width survives encoding and decoding. */
  lemma DecodeEncodeField(f: seq<nat>, w: Widths, i: nat)
    requires |f| == |w| && i < |w| && f[i] < Pow256(w[i])
    ensures DecodeFields(EncodeFields(f, w), w)[i] == f[i]
  {
    FieldBytesOfEncode(f, w, i);
    DecodeEncodeLE(f[i], w[i]);
  }

  lemma DecodeEncodeFields(f: seq<nat>, w: Widths)
    requires Fits(f, w)
    ensures DecodeFields(EncodeFields(f, w), w) == f
  {
    var d := DecodeFields(EncodeFields(f, w), w);
    forall i | 0 <= i < |w|
      ensures d[i] == f[i]
    {
      FieldBytesOfEncode(f, w, i);
      DecodeEncodeLE(f[i], w[i]);
    }
  }

  /** Field `i` of a structure is field `i` of its first `n` fields' bytes. */
  lemma FieldBytesOfPrefix(s: seq<byte>, w: Widths, n: nat, i: nat)
    requires |s| == Size(w) && i < n <= |w|
    ensures Offset(w, n) <= |s| && Size(w[..n]) == Offset(w, n)
    ensures FieldBytes(s[..Offset(w, n)], w[..n], i) == FieldBytes(s, w, i)
  {
    OffsetMonotonic(w, n, |w|);
    OffsetMonotonic(w, i + 1, n);
    OffsetOfPrefix(w, n, n);
    OffsetOfPrefix(w, n, i);
    OffsetOfPrefix(w, n, i + 1);
    var front := s[..Offset(w, n)];
    var lo, hi := Offset(w, i), Offset(w, i + 1);
    assert FieldBytes(front, w[..n], i) == front[lo..hi];
    assert FieldBytes(s, w, i) == s[lo..hi];
  }

  /** Decoding the bytes of the first `n` fields gives the first `n` values. */
  lemma DecodeFieldsOfPrefix(s: seq<byte>, w: Widths, n: nat)
    requires |s| == Size(w) && n <= |w|
    ensures Offset(w, n) <= |s| && Size(w[..n]) == Offset(w, n)
    ensures DecodeFields(s[..Offset(w, n)], w[..n]) == DecodeFields(s, w)[..n]
  {
    OffsetMonotonic(w, n, |w|);
    OffsetOfPrefix(w, n, n);
    var front := s[..Offset(w, n)];
    var f := DecodeFields(s, w);
    var g := DecodeFields(front, w[..n]);
    forall i | 0 <= i < n
      ensures g[i] == f[i]
    {
      FieldBytesOfPrefix(s, w, n, i);
    }
  }

  /** A structure's bytes are its first `n` fields' bytes followed by the last field's. */
  lemma SplitLastField(s: seq<byte>, w: Widths)
    requires |s| == Size(w) && |w| > 0
    ensures Offset(w, |w| - 1) <= |s|
    ensures s == s[..Offset(w, |w| - 1)] + FieldBytes(s, w, |w| - 1)
  {
  }

  /** Unfolding `EncodeFields` once. */
  lemma EncodeFieldsLast(f: seq<nat>, w: Widths)
    requires |f| == |w| && |w| > 0
    ensures EncodeFields(f, w) == EncodeFields(f[..|w| - 1], w[..|w| - 1]) + EncodeLE(f[|w| - 1], w[|w| - 1])
  {
  }

  lemma {:induction false} EncodeDecodeFields(s: seq<byte>, w: Widths)
    requires |s| == Size(w)
    ensures EncodeFields(DecodeFields(s, w), w) == s
    decreases |w|
  {
    if |w| > 0 {
      var n := |w| - 1;
      var f := DecodeFields(s, w);
      DecodeFieldsOfPrefix(s, w, n);
      SplitLastField(s, w);
      var front := s[..Offset(w, n)];
      var last := FieldBytes(s, w, n);
      EncodeFieldsLast(f, w);
      assert EncodeFields(f[..n], w[..n]) == front by {
        EncodeDecodeFields(front, w[..n]);
      }
      assert EncodeLE(f[n], w[n]) == last by {
        EncodeDecodeLE(last);
      }
    }
  }
}

=== FILE: mission_definitions.dfy ===
/** The definitions mission DLLs export for the game: the mission types
    and the leading integer fields of the mission description block.

    A mission type is stored as a plain `int`. Positive values are not
    members of the enumeration at all: they number the missions of a
    campaign. The enumeration itself holds exactly the values -1 to -8,
    one per non-campaign game mode, and each mode has a DLL file name
    prefix.
 */
module MissionDefinitions {
  import opened Bytes
  import opened Results

  /** The non-campaign game modes. */
  datatype MissionType =
    | Colony
    | AutoDemo
    | Tutorial
    | MultiLandRush
    | MultiSpaceRace
    | MultiResourceRace
    | MultiMidas
    | MultiLastOneStanding

  /** The value a mode is stored as. */
  function Value(t: MissionType): (v: int)
    ensures -8 <= v <= -1
  {
    match t
    case Colony => -1
    case AutoDemo => -2
    case Tutorial => -3
    case MultiLandRush => -4
    case MultiSpaceRace => -5
    case MultiResourceRace => -6
    case MultiMidas => -7
    case MultiLastOneStanding => -8
  }

  /** The mode a stored value denotes, if it denotes one. */
  function FromValue(v: int): (r: Result<MissionType>)
    ensures r.Ok? <==> -8 <= v <= -1
    ensures r.Ok? ==> Value(r.value) == v
    ensures r.Err? ==> r.error == ImproperMissionType(v)
  {
    if v == -1 then Ok(Colony)
    else if v == -2 then Ok(AutoDemo)
    else if v == -3 then Ok(Tutorial)
    else if v == -4 then Ok(MultiLandRush)
    else if v == -5 then Ok(MultiSpaceRace)
    else if v == -6 then Ok(MultiResourceRace)
    else if v == -7 then Ok(MultiMidas)
    else if v == -8 then Ok(MultiLastOneStanding)
    else Err(ImproperMissionType(v))
  }

  /** Every mode survives being stored and read back, so no two modes share a value. */
  lemma FromValueOfValue(t: MissionType)
    ensures FromValue(Value(t)) == Ok(t)
  {
  }

  /** A stored value denotes a campaign mission when it is positive. */
  predicate IsCampaignMission(missionType: int)
  {
    missionType > 0
  }

  /** No value both numbers a campaign mission and denotes a mode. */
  lemma CampaignIsNotAMode(missionType: int)
    requires IsCampaignMission(missionType)
    ensures FromValue(missionType).Err?
  {
  }

  /** Whether a mode is a multiplayer one. */
  predicate IsMultiplayer(t: MissionType)
  {
    Value(t) <= -4
  }

  /** The DLL file name prefix of a mode; a multiplayer DLL name goes on
      with the maximum number of players. */
  function DllPrefix(t: MissionType): (p: string)
    ensures 1 <= |p| <= 2
  {
    match t
    case Colony => "c"
    case AutoDemo => "a"
    case Tutorial => "t"
    case MultiLandRush => "mu"
    case MultiSpaceRace => "mf"
    case MultiResourceRace => "mr"
    case MultiMidas => "mm"
    case MultiLastOneStanding => "ml"
  }

  /** Prefixes tell modes apart: the prefix starts with 'm' exactly for a
      multiplayer mode, and no two modes share a prefix. */
  lemma DllPrefixIdentifiesMode(a: MissionType, b: MissionType)
    ensures DllPrefix(a)[0] == 'm' <==> IsMultiplayer(a)
    ensures DllPrefix(a) == DllPrefix(b) ==> a == b
  {
  }

  /** The four `int` fields that open the mission description block. */
  datatype AIModDescHead = AIModDescHead(
    missionType: int,
    numPlayers: int,
    maxTechLevel: int,
    boolUnitMission: int)

  /** Bytes taken by the four fields: four 32-bit ints. */
  const AIModDescHeadSize: nat := 16

  /** Whether each field fits a 32-bit `int`. */
  predicate IsInt32Head(d: AIModDescHead)
  {
    && -0x8000_0000 <= d.missionType < 0x8000_0000
    && -0x8000_0000 <= d.numPlayers < 0x8000_0000
    && -0x8000_0000 <= d.maxTechLevel < 0x8000_0000
    && -0x8000_0000 <= d.boolUnitMission < 0x8000_0000
  }

  /** The `int` at byte `at` of a description block. */
  function Int32At(s: seq<byte>, at: nat): (i: int)
    requires at + 4 <= |s|
    ensures -0x8000_0000 <= i < 0x8000_0000
  {
    Pow256Values();
    ToInt32(DecodeLE(s[at..at + 4]))
  }

  /** The four leading fields of a description block, in declaration
      order, each a little-endian two's-complement 32-bit int. */
  function DecodeAIModDescHead(s: seq<byte>): (d: AIModDescHead)
    requires |s| >= AIModDescHeadSize
    ensures IsInt32Head(d)
  {
    AIModDescHead(Int32At(s, 0), Int32At(s, 4), Int32At(s, 8), Int32At(s, 12))
  }

  /** The 16 bytes of the four fields. */
  function EncodeAIModDescHead(d: AIModDescHead): (s: seq<byte>)
    requires IsInt32Head(d)
    ensures |s| == AIModDescHeadSize
  {
    EncodeLE(FromInt32(d.missionType), 4) + EncodeLE(FromInt32(d.numPlayers), 4)
      + EncodeLE(FromInt32(d.maxTechLevel), 4) + EncodeLE(FromInt32(d.boolUnitMission), 4)
  }

  /** Encoding four ints and decoding them gives them back. */
  lemma DecodeEncodeAIModDescHead(d: AIModDescHead)
    requires IsInt32Head(d)
    ensures DecodeAIModDescHead(EncodeAIModDescHead(d)) == d
  {
    Pow256Values();
    var s := EncodeAIModDescHead(d);
    var a, b, c, e := FromInt32(d.missionType), FromInt32(d.numPlayers),
                      FromInt32(d.maxTechLevel), FromInt32(d.boolUnitMission);
    var pa, pb, pc, pe := EncodeLE(a, 4), EncodeLE(b, 4), EncodeLE(c, 4), EncodeLE(e, 4);
    assert s == pa + pb + pc + pe;
    assert s[0..4] == pa;
    assert s[4..8] == pb;
    assert s[8..12] == pc;
    assert s[12..16] == pe;
    DecodeEncodeLE(a, 4);
    DecodeEncodeLE(b, 4);
    DecodeEncodeLE(c, 4);
    DecodeEncodeLE(e, 4);
  }
}

=== FILE: mission_table.dfy ===
/** The pure logic of the mission table: the legends, the mission-type
    keys, the unit-only cell, the header layout, the sorted order of the
    mission paths and the choice of which missions get a row.

    Console output, column padding and file-name trimming are left to the
    caller; opening a file is a lookup in a map from path to contents.
 */
module MissionTable {
  import opened Bytes
  import opened Results
  import opened MissionDefinitions
  import opened ExportReader

  // ---------------------------------------------------------------- legends

  /** A short key shown in the table and the description the legend gives it. */
  datatype LegendEntry = LegendEntry(key: string, description: string)

  /** The column titles, in column order. */
  function ColumnTitles(): seq<LegendEntry>
  {
    [ LegendEntry("DLL NAME", "Name of mission's dll file"),
      LegendEntry("TYP", "Mission type"),
      LegendEntry("#", "Maximum supported count of combined human and AI players"),
      LegendEntry("U", "Is mission unit only"),
      LegendEntry("MAP NAME", "Map filename used by the mission"),
      LegendEntry("TECH TREE NAME", "Name of the tech tree used by the mission"),
      LegendEntry("MISSION DESCRIPTION", "Description of the mission displayed in Outpost 2") ]
  }

  /** The column widths, in column order. */
  function ColumnWidths(): seq<nat>
  {
    [9, 4, 2, 2, 18, 24, 1]
  }

  /** The mission-type keys: entry 0 for campaign missions, then entry `k`
      for the mode stored as `-k`. */
  function MissionTypeLegend(): seq<LegendEntry>
  {
    [ LegendEntry("Cam", "Campaign"),
      LegendEntry("Col", "Colony"),
      LegendEntry("Dem", "Demo"),
      LegendEntry("Tut", "Tutorial"),
      LegendEntry("MLR", "Multiplayer, Land Rush"),
      LegendEntry("MSP", "Multiplayer, Space Race"),
      LegendEntry("MRR", "Multiplayer, Resource Race"),
      LegendEntry("MM", "Multiplayer, Midas"),
      LegendEntry("ML", "Multiplayer, Last One Standing") ]
  }

  /** The length of the longest key of a legend, the width its key column needs. */
  function FindMaxKeyWidth(entries: seq<LegendEntry>): (width: nat)
    requires |entries| > 0
    ensures forall i :: 0 <= i < |entries| ==> |entries[i].key| <= width
    ensures exists i :: 0 <= i < |entries| && |entries[i].key| == width
  {
    if |entries| == 1 then |entries[0].key|
    else
      var rest := FindMaxKeyWidth(entries[1..]);
      assert forall i :: 1 <= i < |entries| ==> entries[i] == entries[1..][i - 1];
      if |entries[0].key| < rest then rest else |entries[0].key|
  }

  /** The key columns of the two legends are 19 and 3 characters wide. */
  lemma LegendKeyWidths()
    ensures FindMaxKeyWidth(ColumnTitles()) == 19
    ensures FindMaxKeyWidth(MissionTypeLegend()) == 3
  {
    var titles := ColumnTitles();
    assert forall i :: 0 <= i < |titles| ==> |titles[i].key| <= 19;
    assert |titles[6].key| == 19;
    var types := MissionTypeLegend();
    assert forall i :: 0 <= i < |types| ==> |types[i].key| <= 3;
    assert |types[0].key| == 3;
  }

  // ---------------------------------------------------------------- cells

  /** The key of a stored mission type: "Cam" for every positive value (a
      campaign mission number), the legend entry at `-missionType` for
      values 0 down to -8, and a failure for anything lower. */
  function ConvertMissionTypeToString(missionType: int): (r: Result<string>)
    ensures missionType > 0 ==> r == Ok("Cam")
    ensures r.Ok? <==> missionType >= 1 - |MissionTypeLegend()|
    ensures r.Ok? ==> exists k :: 0 <= k < |MissionTypeLegend()| && r.value == MissionTypeLegend()[k].key
    ensures r.Err? ==> r.error == ImproperMissionType(missionType)
  {
    var legend := MissionTypeLegend();
    if missionType > 0 then Ok(legend[0].key)
    else if -missionType < |legend| then Ok(legend[-missionType].key)
    else Err(ImproperMissionType(missionType))
  }

  /** The key each stored value gets: 0 is a campaign, each single-player
      mode its own key, and -9 is refused. */
  lemma MissionTypeKeys()
    ensures ConvertMissionTypeToString(0) == Ok("Cam")
    ensures ConvertMissionTypeToString(Value(Colony)) == Ok("Col")
    ensures ConvertMissionTypeToString(Value(AutoDemo)) == Ok("Dem")
    ensures ConvertMissionTypeToString(Value(Tutorial)) == Ok("Tut")
    ensures ConvertMissionTypeToString(-9) == Err(ImproperMissionType(-9))
  {
  }

  /** The keys of the multiplayer modes. */
  lemma MultiplayerMissionTypeKeys()
    ensures ConvertMissionTypeToString(Value(MultiLandRush)) == Ok("MLR")
    ensures ConvertMissionTypeToString(Value(MultiSpaceRace)) == Ok("MSP")
    ensures ConvertMissionTypeToString(Value(MultiResourceRace)) == Ok("MRR")
    ensures ConvertMissionTypeToString(Value(MultiMidas)) == Ok("MM")
    ensures ConvertMissionTypeToString(Value(MultiLastOneStanding)) == Ok("ML")
  {
  }

  /** A stored value gets a key exactly when it numbers a campaign
      mission, is zero, or denotes a mode; and two values at or below zero
      that get the same key are the same value. */
  lemma ConvertMissionTypeMatchesModes(missionType: int, other: int)
    ensures ConvertMissionTypeToString(missionType).Ok?
        <==> IsCampaignMission(missionType) || missionType == 0 || FromValue(missionType).Ok?
    ensures missionType <= 0 && other <= 0
         && ConvertMissionTypeToString(missionType).Ok?
         && ConvertMissionTypeToString(missionType) == ConvertMissionTypeToString(other)
         ==> missionType == other
  {
    if missionType <= 0 && other <= 0
       && ConvertMissionTypeToString(missionType).Ok?
       && ConvertMissionTypeToString(missionType) == ConvertMissionTypeToString(other) {
      var legend := MissionTypeLegend();
      assert legend[-missionType].key == legend[-other].key;
    }
  }

  /** The text of a yes/no cell. */
  function WriteBoolCell(boolean: bool): (cell: string)
    ensures |cell| == 1
    ensures cell == "T" <==> boolean
    ensures cell == "F" <==> !boolean
  {
    if boolean then "T" else "F"
  }

  /** The unit-only cell: the stored int converted to `bool`, so any non-zero value is true. */
  function UnitOnlyCell(boolUnitMission: int): (cell: string)
    ensures cell == "T" <==> boolUnitMission != 0
    ensures cell == "F" <==> boolUnitMission == 0
  {
    WriteBoolCell(boolUnitMission != 0)
  }

  /** The header: each column title paired with the width at the same index. */
  function HeaderCells(titles: seq<LegendEntry>, widths: seq<nat>): (cells: seq<(string, nat)>)
    requires |titles| <= |widths|
    ensures |cells| == |titles|
    ensures forall i :: 0 <= i < |cells| ==> cells[i].0 == titles[i].key && cells[i].1 == widths[i]
  {
    seq(|titles|, i requires 0 <= i < |titles| => (titles[i].key, widths[i]))
  }

  /** The header has seven cells, from "DLL NAME" nine wide to "MISSION
      DESCRIPTION" one wide. */
  lemma HeaderLayout()
    ensures |ColumnTitles()| == |ColumnWidths()| == 7
    ensures HeaderCells(ColumnTitles(), ColumnWidths())[0] == ("DLL NAME", 9)
    ensures HeaderCells(ColumnTitles(), ColumnWidths())[6] == ("MISSION DESCRIPTION", 1)
  {
  }

  // ---------------------------------------------------------------- path order

  /** Lexicographic order on paths: a proper prefix comes first, otherwise
      the first differing character decides. */
  predicate LexLe(a: string, b: string)
    decreases |a|
  {
    |a| == 0 || (|b| > 0 && (a[0] < b[0] || (a[0] == b[0] && LexLe(a[1..], b[1..]))))
  }

  lemma {:induction false} LexLeReflexive(a: string)
    ensures LexLe(a, a)
    decreases |a|
  {
    if |a| > 0 {
      LexLeReflexive(a[1..]);
    }
  }

  lemma {:induction false} LexLeTotal(a: string, b: string)
    ensures LexLe(a, b) || LexLe(b, a)
    decreases |a|
  {
    if |a| > 0 && |b| > 0 && a[0] == b[0] {
      LexLeTotal(a[1..], b[1..]);
    }
  }

  lemma {:induction false} LexLeTransitive(a: string, b: string, c: string)
    requires LexLe(a, b) && LexLe(b, c)
    ensures LexLe(a, c)
    decreases |a|
  {
    if |a| > 0 && a[0] == b[0] && b[0] == c[0] {
      LexLeTransitive(a[1..], b[1..], c[1..]);
    }
  }

  lemma {:induction false} LexLeAntisymmetric(a: string, b: string)
    requires LexLe(a, b) && LexLe(b, a)
    ensures a == b
    decreases |a|
  {
    if |a| > 0 {
      LexLeAntisymmetric(a[1..], b[1..]);
      assert a == [a[0]] + a[1..];
      assert b == [b[0]] + b[1..];
    }
  }

  /** Every path is ordered before each later one. */
  predicate Sorted(s: seq<string>)
  {
    forall i, j :: 0 <= i < j < |s| ==> LexLe(s[i], s[j])
  }

  /** Insert `x` into sorted `s` before the first path it does not follow. */
  function Insert(x: string, s: seq<string>): (r: seq<string>)
    requires Sorted(s)
    ensures Sorted(r)
    ensures multiset(r) == multiset(s) + multiset{x}
  {
    if |s| == 0 then [x]
    else if LexLe(x, s[0]) then
      LeadsSorted(x, s);
      [x] + s
    else
      LexLeTotal(x, s[0]);
      SortedTail(s);
      var rest := Insert(x, s[1..]);
      assert s == [s[0]] + s[1..];
      HeadLeadsInsertion(s, x, rest);
      SortedCons(s[0], rest);
      [s[0]] + rest
  }

  /** A path ordered before the first of a sorted sequence can lead it. */
  lemma LeadsSorted(x: string, s: seq<string>)
    requires Sorted(s) && |s| > 0 && LexLe(x, s[0])
    ensures Sorted([x] + s)
  {
    forall y | y in multiset(s)
      ensures LexLe(x, y)
    {
      var j :| 0 <= j < |s| && s[j] == y;
      if j > 0 {
        LexLeTransitive(x, s[0], s[j]);
      }
    }
    SortedCons(x, s);
  }

  /** The first path of a sorted sequence leads the rest with `x` inserted,
      when it leads `x` as well. */
  lemma HeadLeadsInsertion(s: seq<string>, x: string, rest: seq<string>)
    requires Sorted(s) && |s| > 0 && LexLe(s[0], x)
    requires multiset(rest) == multiset(s[1..]) + multiset{x}
    ensures forall y :: y in multiset(rest) ==> LexLe(s[0], y)
  {
    forall y | y in multiset(rest)
      ensures LexLe(s[0], y)
    {
      if y != x {
        assert y in multiset(s[1..]);
        var k :| 0 <= k < |s[1..]| && s[1..][k] == y;
        assert s[k + 1] == y;
      }
    }
  }

  /** The paths in ascending order, duplicates kept. */
  function SortPaths(paths: seq<string>): (r: seq<string>)
    ensures Sorted(r)
    ensures multiset(r) == multiset(paths)
  {
    if |paths| == 0 then []
    else
      assert paths == paths[..|paths| - 1] + [paths[|paths| - 1]];
      Insert(paths[|paths| - 1], SortPaths(paths[..|paths| - 1]))
  }

  /** Two sorted arrangements of the same paths start with the same path. */
  lemma SortedHeadsEqual(a: seq<string>, b: seq<string>)
    requires Sorted(a) && Sorted(b) && multiset(a) == multiset(b) && |a| > 0
    ensures |b| > 0 && a[0] == b[0]
  {
    assert a[0] in multiset(b);
    var j :| 0 <= j < |b| && b[j] == a[0];
    assert b[0] in multiset(a);
    var i :| 0 <= i < |a| && a[i] == b[0];
    assert LexLe(b[0], a[0]) by {
      if j > 0 {
        assert LexLe(b[0], b[j]);
      } else {
        LexLeReflexive(a[0]);
      }
    }
    assert LexLe(a[0], b[0]) by {
      if i > 0 {
        assert LexLe(a[0], a[i]);
      }
    }
    LexLeAntisymmetric(a[0], b[0]);
  }

  /** There is only one ascending arrangement of a collection of paths, so
      the order is fixed whatever sorting algorithm produced it. */
  lemma {:induction false} SortedPermutationUnique(a: seq<string>, b: seq<string>)
    requires Sorted(a) && Sorted(b) && multiset(a) == multiset(b)
    ensures a == b
    decreases |a|
  {
    if |a| == 0 {
      assert |b| == |multiset(b)| == 0;
    } else {
      SortedHeadsEqual(a, b);
      assert a == [a[0]] + a[1..];
      assert b == [b[0]] + b[1..];
      assert multiset(a[1..]) == multiset(a) - multiset{a[0]};
      assert multiset(b[1..]) == multiset(b) - multiset{b[0]};
      SortedTail(a);
      SortedTail(b);
      SortedPermutationUnique(a[1..], b[1..]);
    }
  }

  // ---------------------------------------------------------------- rows

  /** A name in the export table as the narrow string the program spells
      it with: one byte per character, the character's code when it is
      below 256 (every name used here is ASCII). */
  function ExportName(s: string): (name: seq<byte>)
    ensures |name| == |s|
    ensures forall i :: 0 <= i < |s| && s[i] as int < 0x100 ==> name[i] == s[i] as int
  {
    seq(|s|, i requires 0 <= i < |s| => (s[i] as int) % 0x100)
  }

  /** The export holding the mission's map file name. */
  const MapNameExport: seq<byte> := ExportName("MapName")

  /** The export holding the mission's tech tree file name. */
  const TechtreeNameExport: seq<byte> := ExportName("TechtreeName")

  /** The export every listed mission has. */
  const LevelDescExport: seq<byte> := ExportName("LevelDesc")

  /** Opening a mission: reading the file at a path and constructing its
      reader, which for the file's bytes `data` is `NewReader(data, stringCap)`. */
  type Opener = string -> Result<Reader>

  /** Every reader an opener produces is well formed, as `NewReader`'s are. */
  ghost predicate OpensValid(open: Opener)
  {
    forall p :: open(p).Ok? ==> open(p).value.Valid()
  }

  /** The opener over an in-memory file system; `NewReader` checks the
      failure of a path that is not there like a file of no bytes. */
  function OpenFrom(files: map<string, seq<byte>>, stringCap: nat): (open: Opener)
    ensures OpensValid(open)
    ensures forall p :: p in files ==> open(p) == NewReader(files[p], stringCap)
  {
    p => NewReader(if p in files then files[p] else [], stringCap)
  }

  /** Whether the mission at `path` opens and exports "LevelDesc". */
  predicate IsListedMission(open: Opener, path: string)
  {
    open(path).Ok? && DoesExportExist(open(path).value.exportNameTable, LevelDescExport)
  }

  /** The paths of `paths` that satisfy `keep`, in the order given. */
  function KeepWhere(paths: seq<string>, keep: string -> bool): (r: seq<string>)
    ensures forall p :: multiset(r)[p] == if keep(p) then multiset(paths)[p] else 0
    ensures Sorted(paths) ==> Sorted(r)
  {
    if |paths| == 0 then []
    else
      var rest := KeepWhere(paths[1..], keep);
      assert paths == [paths[0]] + paths[1..];
      assert Sorted(paths) ==> Sorted(paths[1..]) by {
        if Sorted(paths) {
          SortedTail(paths);
        }
      }
      if keep(paths[0]) then
        var r := [paths[0]] + rest;
        assert Sorted(paths) ==> Sorted(r) by {
          if Sorted(paths) {
            forall y | y in multiset(rest)
              ensures LexLe(paths[0], y)
            {
              assert y in multiset(paths[1..]);
              var k :| 0 <= k < |paths[1..]| && paths[1..][k] == y;
              assert paths[k + 1] == y;
            }
            SortedCons(paths[0], rest);
          }
        }
        r
      else
        rest
  }

  /** The tail of a sorted sequence is sorted. */
  lemma SortedTail(s: seq<string>)
    requires Sorted(s) && |s| > 0
    ensures Sorted(s[1..])
  {
    forall i, j | 0 <= i < j < |s[1..]|
      ensures LexLe(s[1..][i], s[1..][j])
    {
      assert s[1..][i] == s[i + 1] && s[1..][j] == s[j + 1];
    }
  }

  /** A path ordered before every path of a sorted sequence can lead it. */
  lemma SortedCons(x: string, s: seq<string>)
    requires Sorted(s)
    requires forall y :: y in multiset(s) ==> LexLe(x, y)
    ensures Sorted([x] + s)
  {
    var r := [x] + s;
    forall i, j | 0 <= i < j < |r|
      ensures LexLe(r[i], r[j])
    {
      if i == 0 {
        assert r[j] == s[j - 1];
        assert r[j] in multiset(s);
      } else {
        assert r[i] == s[i - 1] && r[j] == s[j - 1];
      }
    }
  }

  /** The paths the table gets a row for, in the table's order: every
      listed path, as often as it was given, in ascending order. A path
      whose file is missing, does not parse, or lacks "LevelDesc" is
      skipped. */
  function SelectMissionRows(paths: seq<string>, open: Opener): (r: seq<string>)
    ensures Sorted(r)
    ensures forall p :: multiset(r)[p] == if IsListedMission(open, p) then multiset(paths)[p] else 0
  {
    KeepWhere(SortPaths(paths), p => IsListedMission(open, p))
  }

  /** The selection is determined by its contract: any ascending
      arrangement of exactly the listed paths is the selection. */
  lemma SelectMissionRowsUnique(paths: seq<string>, open: Opener, rows: seq<string>)
    requires Sorted(rows)
    requires forall p :: multiset(rows)[p] == if IsListedMission(open, p) then multiset(paths)[p] else 0
    ensures rows == SelectMissionRows(paths, open)
  {
    var r := SelectMissionRows(paths, open);
    assert multiset(rows) == multiset(r);
    SortedPermutationUnique(rows, r);
  }

  /** The export holding the mission's description block. */
  const DescBlockExport: seq<byte> := ExportName("DescBlock")

  /** The three cells drawn from the description block. */
  datatype DescCells = DescCells(missionType: string, numPlayers: int, unitOnly: string)

  /** The mission-type key, player count and unit-only cell of a
      description block; a mission type below -8 stops the row. */
  function DescBlockCells(block: seq<byte>): (r: Result<DescCells>)
    requires |block| >= AIModDescHeadSize
    ensures var head := DecodeAIModDescHead(block);
      r.Ok? <==> head.missionType >= -8
    ensures var head := DecodeAIModDescHead(block);
      r.Ok? ==> r.value.numPlayers == head.numPlayers
    ensures var head := DecodeAIModDescHead(block);
      r.Ok? ==> (r.value.unitOnly == "T" <==> head.boolUnitMission != 0)
    ensures var head := DecodeAIModDescHead(block);
      r.Ok? ==> ConvertMissionTypeToString(head.missionType) == Ok(r.value.missionType)
    ensures var head := DecodeAIModDescHead(block);
      r.Err? ==> r.error == ImproperMissionType(head.missionType)
  {
    var head := DecodeAIModDescHead(block);
    var missionType :- ConvertMissionTypeToString(head.missionType);
    Ok(DescCells(missionType, head.numPlayers, UnitOnlyCell(head.boolUnitMission)))
  }

  /** What a row shows about one mission, after the file name. */
  datatype MissionRow = MissionRow(
    cells: DescCells,
    mapName: seq<byte>,
    techtreeName: seq<byte>,
    levelDesc: seq<byte>)

  /** The cells of a mission's row: those of the "DescBlock" export of
      `descBlockSize` bytes, then the "MapName", "TechtreeName" and
      "LevelDesc" strings. Any failure stops the row. */
  function DescribeMission(reader: Reader, descBlockSize: nat): (r: Result<MissionRow>)
    requires reader.Valid()
    requires descBlockSize >= AIModDescHeadSize
    ensures DescBlockExport !in reader.exportNameTable ==> r == Err(ExportNotFound(DescBlockExport))
    ensures r.Ok? ==> ReadExport(reader, DescBlockExport, descBlockSize).Ok?
    ensures r.Ok? ==> DescBlockCells(ReadExport(reader, DescBlockExport, descBlockSize).value) == Ok(r.value.cells)
    ensures r.Ok? ==> ReadExportString(reader, MapNameExport) == Ok(r.value.mapName)
    ensures r.Ok? ==> ReadExportString(reader, TechtreeNameExport) == Ok(r.value.techtreeName)
    ensures r.Ok? ==> ReadExportString(reader, LevelDescExport) == Ok(r.value.levelDesc)
    ensures r.Ok? <==>
      && ReadExport(reader, DescBlockExport, descBlockSize).Ok?
      && DescBlockCells(ReadExport(reader, DescBlockExport, descBlockSize).value).Ok?
      && ReadExportString(reader, MapNameExport).Ok?
      && ReadExportString(reader, TechtreeNameExport).Ok?
      && ReadExportString(reader, LevelDescExport).Ok?
    ensures ReadExport(reader, DescBlockExport, descBlockSize).Err? ==>
      r == Err(ReadExport(reader, DescBlockExport, descBlockSize).error)
  {
    var block :- ReadExport(reader, DescBlockExport, descBlockSize);
    var cells :- DescBlockCells(block);
    var mapName :- ReadExportString(reader, MapNameExport);
    var techtreeName :- ReadExportString(reader, TechtreeNameExport);
    var levelDesc :- ReadExportString(reader, LevelDescExport);
    Ok(MissionRow(cells, mapName, techtreeName, levelDesc))
  }

  /** The table body: one row per selected path, in the selection's
      order, each holding the path and the cells read through the reader
      it opens as. */
  function WriteTable(paths: seq<string>, open: Opener, descBlockSize: nat)
    : (rows: seq<(string, Result<MissionRow>)>)
    requires OpensValid(open)
    requires descBlockSize >= AIModDescHeadSize
    ensures |rows| == |SelectMissionRows(paths, open)|
    ensures forall i :: 0 <= i < |rows| ==> rows[i].0 == SelectMissionRows(paths, open)[i]
    ensures forall i :: 0 <= i < |rows| ==> IsListedMission(open, rows[i].0)
    ensures forall i :: 0 <= i < |rows| ==> rows[i].1 == DescribeMission(open(rows[i].0).value, descBlockSize)
  {
    var selected := SelectMissionRows(paths, open);
    SelectedAreListed(paths, open);
    seq(|selected|, i requires 0 <= i < |selected| =>
      (selected[i], DescribeMission(open(selected[i]).value, descBlockSize)))
  }

  /** Every selected path is a listed mission. */
  lemma SelectedAreListed(paths: seq<string>, open: Opener)
    ensures var selected := SelectMissionRows(paths, open);
      forall i :: 0 <= i < |selected| ==> IsListedMission(open, selected[i])
  {
    var selected := SelectMissionRows(paths, open);
    forall i | 0 <= i < |selected|
      ensures IsListedMission(open, selected[i])
    {
      assert selected[i] in multiset(selected);
    }
  }
}

=== FILE: pe_structures.dfy ===
/** The five packed PE/COFF structures the export reader consumes.

    Each structure is a layout (field widths in declaration order), a
    datatype with one member per field, a decoder from exactly the
    structure's size in bytes and an encoder back. The decoders promise
    where each field the reader uses sits; the encoders promise the round
    trip in both directions.

    The facts that tie a structure's fields to the generic layout
    (`…Layout<k>`, `…DecodeLayout<k>`, `…FieldsRoundTrip<k>`) come in chunks
    of a few fields each, because one lemma about all of a large
    structure's fields at once is more than the solver handles within its
    resource bound. Each structure's whole-structure lemmas then combine
    its chunks.
 */
module PeStructures {
  import opened Bytes
  import opened Layout

  /** The eight raw name bytes of a section header (not necessarily NUL-terminated). */
  type SectionName = s: seq<byte> | |s| == 8 witness [0, 0, 0, 0, 0, 0, 0, 0]

  // ---------------------------------------------------------------- ExportDirectoryTable

  /** Field widths of the export directory table that opens the export data. */
  function ExportDirectoryTableWidths(): Widths
  {
    [4, 4, 2, 2, 4, 4, 4, 4, 4, 4, 4]
  }

  const ExportDirectoryTableSize: nat := 40

  datatype ExportDirectoryTable = ExportDirectoryTable(
    exportFlags: u32,
    timeDateStamp: u32,
    majorVersion: u16,
    minorVersion: u16,
    nameRva: u32,
    ordinalBase: u32,
    addressTableEntries: u32,
    numberOfNamePointers: u32,
    exportAddressTableRva: u32,
    namePointerRva: u32,
    ordinalTableRva: u32)

  /** The field values of an ExportDirectoryTable in declaration order. */
  function ExportDirectoryTableFields(x: ExportDirectoryTable): seq<nat>
  {
    [x.exportFlags, x.timeDateStamp, x.majorVersion, x.minorVersion, x.nameRva, x.ordinalBase, x.addressTableEntries, x.numberOfNamePointers, x.exportAddressTableRva, x.namePointerRva, x.ordinalTableRva]
  }

  /** Widths and offsets of fields 0 to 5 of ExportDirectoryTable. */
  lemma ExportDirectoryTableLayout0()
    ensures |ExportDirectoryTableWidths()| == 11
    ensures ExportDirectoryTableWidths()[0] == 4 && Offset(ExportDirectoryTableWidths(), 1) == 4
    ensures ExportDirectoryTableWidths()[1] == 4 && Offset(ExportDirectoryTableWidths(), 2) == 8
    ensures ExportDirectoryTableWidths()[2] == 2 && Offset(ExportDirectoryTableWidths(), 3) == 10
    ensures ExportDirectoryTableWidths()[3] == 2 && Offset(ExportDirectoryTableWidths(), 4) == 12
    ensures ExportDirectoryTableWidths()[4] == 4 && Offset(ExportDirectoryTableWidths(), 5) == 16
    ensures ExportDirectoryTableWidths()[5] == 4 && Offset(ExportDirectoryTableWidths(), 6) == 20
  {
    var w := ExportDirectoryTableWidths();
    assert Offset(w, 1) == 4;
    assert Offset(w, 2) == 8;
    assert Offset(w, 3) == 10;
    assert Offset(w, 4) == 12;
    assert Offset(w, 5) == 16;
    assert Offset(w, 6) == 20;
  }

  /** ExportDirectoryTable has 11 fields, is 40 bytes, and its fields have their declared widths and offsets. */
  lemma ExportDirectoryTableLayout()
    ensures |ExportDirectoryTableWidths()| == 11
    ensures Size(ExportDirectoryTableWidths()) == ExportDirectoryTableSize
    ensures ExportDirectoryTableWidths()[0] == 4 && Offset(ExportDirectoryTableWidths(), 1) == 4
    ensures ExportDirectoryTableWidths()[1] == 4 && Offset(ExportDirectoryTableWidths(), 2) == 8
    ensures ExportDirectoryTableWidths()[2] == 2 && Offset(ExportDirectoryTableWidths(), 3) == 10
    ensures ExportDirectoryTableWidths()[3] == 2 && Offset(ExportDirectoryTableWidths(), 4) == 12
    ensures ExportDirectoryTableWidths()[4] == 4 && Offset(ExportDirectoryTableWidths(), 5) == 16
    ensures ExportDirectoryTableWidths()[5] == 4 && Offset(ExportDirectoryTableWidths(), 6) == 20
    ensures ExportDirectoryTableWidths()[6] == 4 && Offset(ExportDirectoryTableWidths(), 7) == 24
    ensures ExportDirectoryTableWidths()[7] == 4 && Offset(ExportDirectoryTableWidths(), 8) == 28
    ensures ExportDirectoryTableWidths()[8] == 4 && Offset(ExportDirectoryTableWidths(), 9) == 32
    ensures ExportDirectoryTableWidths()[9] == 4 && Offset(ExportDirectoryTableWidths(), 10) == 36
    ensures ExportDirectoryTableWidths()[10] == 4 && Offset(ExportDirectoryTableWidths(), 11) == 40
  {
    var w := ExportDirectoryTableWidths();
    ExportDirectoryTableLayout0();
    assert Offset(w, 7) == 24;
    assert Offset(w, 8) == 28;
    assert Offset(w, 9) == 32;
    assert Offset(w, 10) == 36;
    assert Offset(w, 11) == 40;
  }

  /** Decode an ExportDirectoryTable from exactly its 40 packed bytes. */
  function DecodeExportDirectoryTable(s: seq<byte>): (x: ExportDirectoryTable)
    requires |s| == ExportDirectoryTableSize
    ensures x.numberOfNamePointers == DecodeLE(s[24..28])
    ensures x.exportAddressTableRva == DecodeLE(s[28..32])
    ensures x.namePointerRva == DecodeLE(s[32..36])
    ensures x.ordinalTableRva == DecodeLE(s[36..40])
  {
    ExportDirectoryTable(
      U32At(s, 0),
      U32At(s, 4),
      U16At(s, 8),
      U16At(s, 10),
      U32At(s, 12),
      U32At(s, 16),
      U32At(s, 20),
      U32At(s, 24),
      U32At(s, 28),
      U32At(s, 32),
      U32At(s, 36))
  }

  /** Fields 0 to 3 of a decoded ExportDirectoryTable are those of its generic layout. */
  lemma ExportDirectoryTableDecodeLayout0(s: seq<byte>)
    requires |s| == ExportDirectoryTableSize
    ensures |ExportDirectoryTableWidths()| == 11 && Size(ExportDirectoryTableWidths()) == ExportDirectoryTableSize
    ensures var d := DecodeFields(s, ExportDirectoryTableWidths()); var x := DecodeExportDirectoryTable(s);
      d[0] == x.exportFlags && d[1] == x.timeDateStamp && d[2] == x.majorVersion && d[3] == x.minorVersion
  {
    ExportDirectoryTableLayout();
  }

  /** Fields 4 to 7 of a decoded ExportDirectoryTable are those of its generic layout. */
  lemma ExportDirectoryTableDecodeLayout1(s: seq<byte>)
    requires |s| == ExportDirectoryTableSize
    ensures |ExportDirectoryTableWidths()| == 11 && Size(ExportDirectoryTableWidths()) == ExportDirectoryTableSize
    ensures var d := DecodeFields(s, ExportDirectoryTableWidths()); var x := DecodeExportDirectoryTable(s);
      d[4] == x.nameRva && d[5] == x.ordinalBase && d[6] == x.addressTableEntries && d[7] == x.numberOfNamePointers
  {
    ExportDirectoryTableLayout();
  }

  /** Fields 8 to 10 of a decoded ExportDirectoryTable are those of its generic layout. */
  lemma ExportDirectoryTableDecodeLayout2(s: seq<byte>)
    requires |s| == ExportDirectoryTableSize
    ensures |ExportDirectoryTableWidths()| == 11 && Size(ExportDirectoryTableWidths()) == ExportDirectoryTableSize
    ensures var d := DecodeFields(s, ExportDirectoryTableWidths()); var x := DecodeExportDirectoryTable(s);
      d[8] == x.exportAddressTableRva && d[9] == x.namePointerRva && d[10] == x.ordinalTableRva
  {
    ExportDirectoryTableLayout();
  }

  /** Fields 0 to 3 of an encoded ExportDirectoryTable decode to their values. */
  lemma ExportDirectoryTableFieldsRoundTrip0(x: ExportDirectoryTable)
    ensures |ExportDirectoryTableFields(x)| == |ExportDirectoryTableWidths()|
    ensures var d := DecodeFields(EncodeFields(ExportDirectoryTableFields(x), ExportDirectoryTableWidths()), ExportDirectoryTableWidths());
      |d| == 11 && d[0] == x.exportFlags && d[1] == x.timeDateStamp && d[2] == x.majorVersion && d[3] == x.minorVersion
  {
    var w := ExportDirectoryTableWidths();
    ExportDirectoryTableLayout();
    Pow256Values();
    var f := ExportDirectoryTableFields(x);
    DecodeEncodeField(f, w, 0);
    DecodeEncodeField(f, w, 1);
    DecodeEncodeField(f, w, 2);
    DecodeEncodeField(f, w, 3);
  }

  /** Fields 4 to 7 of an encoded ExportDirectoryTable decode to their values. */
  lemma ExportDirectoryTableFieldsRoundTrip1(x: ExportDirectoryTable)
    ensures |ExportDirectoryTableFields(x)| == |ExportDirectoryTableWidths()|
    ensures var d := DecodeFields(EncodeFields(ExportDirectoryTableFields(x), ExportDirectoryTableWidths()), ExportDirectoryTableWidths());
      |d| == 11 && d[4] == x.nameRva && d[5] == x.ordinalBase && d[6] == x.addressTableEntries && d[7] == x.numberOfNamePointers
  {
    var w := ExportDirectoryTableWidths();
    ExportDirectoryTableLayout();
    Pow256Values();
    var f := ExportDirectoryTableFields(x);
    DecodeEncodeField(f, w, 4);
    DecodeEncodeField(f, w, 5);
    DecodeEncodeField(f, w, 6);
    DecodeEncodeField(f, w, 7);
  }

  /** Fields 8 to 10 of an encoded ExportDirectoryTable decode to their values. */
  lemma ExportDirectoryTableFieldsRoundTrip2(x: ExportDirectoryTable)
    ensures |ExportDirectoryTableFields(x)| == |ExportDirectoryTableWidths()|
    ensures var d := DecodeFields(EncodeFields(ExportDirectoryTableFields(x), ExportDirectoryTableWidths()), ExportDirectoryTableWidths());
      |d| == 11 && d[8] == x.exportAddressTableRva && d[9] == x.namePointerRva && d[10] == x.ordinalTableRva
  {
    var w := ExportDirectoryTableWidths();
    ExportDirectoryTableLayout();
    Pow256Values();
    var f := ExportDirectoryTableFields(x);
    DecodeEncodeField(f, w, 8);
    DecodeEncodeField(f, w, 9);
    DecodeEncodeField(f, w, 10);
  }

  /** Decoding the packed fields of an ExportDirectoryTable gives it back. */
  lemma ExportDirectoryTableRoundTrip(x: ExportDirectoryTable)
    ensures |ExportDirectoryTableFields(x)| == |ExportDirectoryTableWidths()| && Size(ExportDirectoryTableWidths()) == ExportDirectoryTableSize
    ensures DecodeExportDirectoryTable(EncodeFields(ExportDirectoryTableFields(x), ExportDirectoryTableWidths())) == x
  {
    ExportDirectoryTableLayout();
    var s := EncodeFields(ExportDirectoryTableFields(x), ExportDirectoryTableWidths());
    ExportDirectoryTableFieldsRoundTrip0(x);
    ExportDirectoryTableDecodeLayout0(s);
    ExportDirectoryTableFieldsRoundTrip1(x);
    ExportDirectoryTableDecodeLayout1(s);
    ExportDirectoryTableFieldsRoundTrip2(x);
    ExportDirectoryTableDecodeLayout2(s);
  }

  /** The 40 packed bytes of an ExportDirectoryTable; decoding them gives it back. */
  function EncodeExportDirectoryTable(x: ExportDirectoryTable): (s: seq<byte>)
    ensures |s| == ExportDirectoryTableSize
    ensures DecodeExportDirectoryTable(s) == x
  {
    ExportDirectoryTableRoundTrip(x);
    EncodeFields(ExportDirectoryTableFields(x), ExportDirectoryTableWidths())
  }

  /** The field values of `x` in order are `d`, given each one. */
  lemma ExportDirectoryTableFieldsAre(x: ExportDirectoryTable, d: seq<nat>)
    requires |d| == 11
    requires d[0] == x.exportFlags && d[1] == x.timeDateStamp && d[2] == x.majorVersion && d[3] == x.minorVersion
    requires d[4] == x.nameRva && d[5] == x.ordinalBase && d[6] == x.addressTableEntries && d[7] == x.numberOfNamePointers
    requires d[8] == x.exportAddressTableRva && d[9] == x.namePointerRva && d[10] == x.ordinalTableRva
    ensures ExportDirectoryTableFields(x) == d
  {
  }

  /** Encoding the ExportDirectoryTable decoded from `s` gives back `s`: the packed
      layout has no padding and drops no byte. */
  lemma ExportDirectoryTableDecodeRoundTrip(s: seq<byte>)
    requires |s| == ExportDirectoryTableSize
    ensures EncodeExportDirectoryTable(DecodeExportDirectoryTable(s)) == s
  {
    ExportDirectoryTableDecodeLayout0(s);
    ExportDirectoryTableDecodeLayout1(s);
    ExportDirectoryTableDecodeLayout2(s);
    ExportDirectoryTableFieldsAre(DecodeExportDirectoryTable(s), DecodeFields(s, ExportDirectoryTableWidths()));
    EncodeDecodeFields(s, ExportDirectoryTableWidths());
  }

  // ---------------------------------------------------------------- CoffHeader

  /** Field widths of the COFF file header that follows the PE signature. */
  function CoffHeaderWidths(): Widths
  {
    [2, 2, 4, 4, 4, 2, 2]
  }

  const CoffHeaderSize: nat := 20

  datatype CoffHeader = CoffHeader(
    machine: u16,
    numberOfSections: u16,
    timeDateStamp: u32,
    pointerToSymbolTable: u32,
    numberOfSymbols: u32,
    sizeOfOptionalHeader: u16,
    characteristics: u16)

  /** The field values of a CoffHeader in declaration order. */
  function CoffHeaderFields(x: CoffHeader): seq<nat>
  {
    [x.machine, x.numberOfSections, x.timeDateStamp, x.pointerToSymbolTable, x.numberOfSymbols, x.sizeOfOptionalHeader, x.characteristics]
  }

  /** Widths and offsets of fields 0 to 5 of CoffHeader. */
  lemma CoffHeaderLayout0()
    ensures |CoffHeaderWidths()| == 7
    ensures CoffHeaderWidths()[0] == 2 && Offset(CoffHeaderWidths(), 1) == 2
    ensures CoffHeaderWidths()[1] == 2 && Offset(CoffHeaderWidths(), 2) == 4
    ensures CoffHeaderWidths()[2] == 4 && Offset(CoffHeaderWidths(), 3) == 8
    ensures CoffHeaderWidths()[3] == 4 && Offset(CoffHeaderWidths(), 4) == 12
    ensures CoffHeaderWidths()[4] == 4 && Offset(CoffHeaderWidths(), 5) == 16
    ensures CoffHeaderWidths()[5] == 2 && Offset(CoffHeaderWidths(), 6) == 18
  {
    var w := CoffHeaderWidths();
    assert Offset(w, 1) == 2;
    assert Offset(w, 2) == 4;
    assert Offset(w, 3) == 8;
    assert Offset(w, 4) == 12;
    assert Offset(w, 5) == 16;
    assert Offset(w, 6) == 18;
  }

  /** CoffHeader has 7 fields, is 20 bytes, and its fields have their declared widths and offsets. */
  lemma CoffHeaderLayout()
    ensures |CoffHeaderWidths()| == 7
    ensures Size(CoffHeaderWidths()) == CoffHeaderSize
    ensures CoffHeaderWidths()[0] == 2 && Offset(CoffHeaderWidths(), 1) == 2
    ensures CoffHeaderWidths()[1] == 2 && Offset(CoffHeaderWidths(), 2) == 4
    ensures CoffHeaderWidths()[2] == 4 && Offset(CoffHeaderWidths(), 3) == 8
    ensures CoffHeaderWidths()[3] == 4 && Offset(CoffHeaderWidths(), 4) == 12
    ensures CoffHeaderWidths()[4] == 4 && Offset(CoffHeaderWidths(), 5) == 16
    ensures CoffHeaderWidths()[5] == 2 && Offset(CoffHeaderWidths(), 6) == 18
    ensures CoffHeaderWidths()[6] == 2 && Offset(CoffHeaderWidths(), 7) == 20
  {
    var w := CoffHeaderWidths();
    CoffHeaderLayout0();
    assert Offset(w, 7) == 20;
  }

  /** Decode a CoffHeader from exactly its 20 packed bytes. */
  function DecodeCoffHeader(s: seq<byte>): (x: CoffHeader)
    requires |s| == CoffHeaderSize
    ensures x.numberOfSections == DecodeLE(s[2..4])
    ensures x.characteristics == DecodeLE(s[18..20])
  {
    CoffHeader(
      U16At(s, 0),
      U16At(s, 2),
      U32At(s, 4),
      U32At(s, 8),
      U32At(s, 12),
      U16At(s, 16),
      U16At(s, 18))
  }

  /** Fields 0 to 3 of a decoded CoffHeader are those of its generic layout. */
  lemma CoffHeaderDecodeLayout0(s: seq<byte>)
    requires |s| == CoffHeaderSize
    ensures |CoffHeaderWidths()| == 7 && Size(CoffHeaderWidths()) == CoffHeaderSize
    ensures var d := DecodeFields(s, CoffHeaderWidths()); var x := DecodeCoffHeader(s);
      d[0] == x.machine && d[1] == x.numberOfSections && d[2] == x.timeDateStamp && d[3] == x.pointerToSymbolTable
  {
    CoffHeaderLayout();
  }

  /** Fields 4 to 6 of a decoded CoffHeader are those of its generic layout. */
  lemma CoffHeaderDecodeLayout1(s: seq<byte>)
    requires |s| == CoffHeaderSize
    ensures |CoffHeaderWidths()| == 7 && Size(CoffHeaderWidths()) == CoffHeaderSize
    ensures var d := DecodeFields(s, CoffHeaderWidths()); var x := DecodeCoffHeader(s);
      d[4] == x.numberOfSymbols && d[5] == x.sizeOfOptionalHeader && d[6] == x.characteristics
  {
    CoffHeaderLayout();
  }

  /** Fields 0 to 3 of an encoded CoffHeader decode to their values. */
  lemma CoffHeaderFieldsRoundTrip0(x: CoffHeader)
    ensures |CoffHeaderFields(x)| == |CoffHeaderWidths()|
    ensures var d := DecodeFields(EncodeFields(CoffHeaderFields(x), CoffHeaderWidths()), CoffHeaderWidths());
      |d| == 7 && d[0] == x.machine && d[1] == x.numberOfSections && d[2] == x.timeDateStamp && d[3] == x.pointerToSymbolTable
  {
    var w := CoffHeaderWidths();
    CoffHeaderLayout();
    Pow256Values();
    var f := CoffHeaderFields(x);
    DecodeEncodeField(f, w, 0);
    DecodeEncodeField(f, w, 1);
    DecodeEncodeField(f, w, 2);
    DecodeEncodeField(f, w, 3);
  }

  /** Fields 4 to 6 of an encoded CoffHeader decode to their values. */
  lemma CoffHeaderFieldsRoundTrip1(x: CoffHeader)
    ensures |CoffHeaderFields(x)| == |CoffHeaderWidths()|
    ensures var d := DecodeFields(EncodeFields(CoffHeaderFields(x), CoffHeaderWidths()), CoffHeaderWidths());
      |d| == 7 && d[4] == x.numberOfSymbols && d[5] == x.sizeOfOptionalHeader && d[6] == x.characteristics
  {
    var w := CoffHeaderWidths();
    CoffHeaderLayout();
    Pow256Values();
    var f := CoffHeaderFields(x);
    DecodeEncodeField(f, w, 4);
    DecodeEncodeField(f, w, 5);
    DecodeEncodeField(f, w, 6);
  }

  /** Decoding the packed fields of a CoffHeader gives it back. */
  lemma CoffHeaderRoundTrip(x: CoffHeader)
    ensures |CoffHeaderFields(x)| == |CoffHeaderWidths()| && Size(CoffHeaderWidths()) == CoffHeaderSize
    ensures DecodeCoffHeader(EncodeFields(CoffHeaderFields(x), CoffHeaderWidths())) == x
  {
    CoffHeaderLayout();
    var s := EncodeFields(CoffHeaderFields(x), CoffHeaderWidths());
    CoffHeaderFieldsRoundTrip0(x);
    CoffHeaderDecodeLayout0(s);
    CoffHeaderFieldsRoundTrip1(x);
    CoffHeaderDecodeLayout1(s);
  }

  /** The 20 packed bytes of a CoffHeader; decoding them gives it back. */
  function EncodeCoffHeader(x: CoffHeader): (s: seq<byte>)
    ensures |s| == CoffHeaderSize
    ensures DecodeCoffHeader(s) == x
  {
    CoffHeaderRoundTrip(x);
    EncodeFields(CoffHeaderFields(x), CoffHeaderWidths())
  }

  /** The field values of `x` in order are `d`, given each one. */
  lemma CoffHeaderFieldsAre(x: CoffHeader, d: seq<nat>)
    requires |d| == 7
    requires d[0] == x.machine && d[1] == x.numberOfSections && d[2] == x.timeDateStamp && d[3] == x.pointerToSymbolTable
    requires d[4] == x.numberOfSymbols && d[5] == x.sizeOfOptionalHeader && d[6] == x.characteristics
    ensures CoffHeaderFields(x) == d
  {
  }

  /** Encoding the CoffHeader decoded from `s` gives back `s`: the packed
      layout has no padding and drops no byte. */
  lemma CoffHeaderDecodeRoundTrip(s: seq<byte>)
    requires |s| == CoffHeaderSize
    ensures EncodeCoffHeader(DecodeCoffHeader(s)) == s
  {
    CoffHeaderDecodeLayout0(s);
    CoffHeaderDecodeLayout1(s);
    CoffHeaderFieldsAre(DecodeCoffHeader(s), DecodeFields(s, CoffHeaderWidths()));
    EncodeDecodeFields(s, CoffHeaderWidths());
  }

  // ---------------------------------------------------------------- Image32Bit

  /** Field widths of the PE32 optional header up to, not including, its data directories. */
  function Image32BitWidths(): Widths
  {
    [2, 1, 1, 4, 4, 4, 4, 4, 4, 4, 4, 4, 2, 2, 2, 2, 2, 2, 4, 4, 4, 4, 2, 2, 4, 4, 4, 4, 4, 4]
  }

  const Image32BitSize: nat := 96

  datatype Image32Bit = Image32Bit(
    magic: u16,
    majorLinkerVersion: byte,
    minorLinkerVersion: byte,
    sizeOfCode: u32,
    sizeOfInitializedData: u32,
    sizeOfUninitializedData: u32,
    addressOfEntryPoint: u32,
    baseOfCode: u32,
    baseOfData: u32,
    imageBase: u32,
    sectionAlignment: u32,
    fileAlignment: u32,
    majorOperatingSystemVersion: u16,
    minorOperatingSystemVersion: u16,
    majorImageVersion: u16,
    minorImageVersion: u16,
    majorSubsystemVersion: u16,
    minorSubsystemVersion: u16,
    win32VersionValue: u32,
    sizeOfImage: u32,
    sizeOfHeaders: u32,
    checkSum: u32,
    subsystem: u16,
    dllCharacteristics: u16,
    sizeOfStackReserve: u32,
    sizeOfStackCommit: u32,
    sizeOfHeapReserve: u32,
    sizeOfHeapCommit: u32,
    loaderFlags: u32,
    numberOfRvaAndSizes: u32)

  /** The field values of an Image32Bit in declaration order. */
  function Image32BitFields(x: Image32Bit): seq<nat>
  {
    [x.magic, x.majorLinkerVersion, x.minorLinkerVersion, x.sizeOfCode, x.sizeOfInitializedData, x.sizeOfUninitializedData, x.addressOfEntryPoint, x.baseOfCode, x.baseOfData, x.imageBase, x.sectionAlignment, x.fileAlignment, x.majorOperatingSystemVersion, x.minorOperatingSystemVersion, x.majorImageVersion, x.minorImageVersion, x.majorSubsystemVersion, x.minorSubsystemVersion, x.win32VersionValue, x.sizeOfImage, x.sizeOfHeaders, x.checkSum, x.subsystem, x.dllCharacteristics, x.sizeOfStackReserve, x.sizeOfStackCommit, x.sizeOfHeapReserve, x.sizeOfHeapCommit, x.loaderFlags, x.numberOfRvaAndSizes]
  }

  /** Widths and offsets of fields 0 to 5 of Image32Bit. */
  lemma Image32BitLayout0()
    ensures |Image32BitWidths()| == 30
    ensures Image32BitWidths()[0] == 2 && Offset(Image32BitWidths(), 1) == 2
    ensures Image32BitWidths()[1] == 1 && Offset(Image32BitWidths(), 2) == 3
    ensures Image32BitWidths()[2] == 1 && Offset(Image32BitWidths(), 3) == 4
    ensures Image32BitWidths()[3] == 4 && Offset(Image32BitWidths(), 4) == 8
    ensures Image32BitWidths()[4] == 4 && Offset(Image32BitWidths(), 5) == 12
    ensures Image32BitWidths()[5] == 4 && Offset(Image32BitWidths(), 6) == 16
  {
    var w := Image32BitWidths();
    assert Offset(w, 1) == 2;
    assert Offset(w, 2) == 3;
    assert Offset(w, 3) == 4;
    assert Offset(w, 4) == 8;
    assert Offset(w, 5) == 12;
    assert Offset(w, 6) == 16;
  }

  /** Widths and offsets of fields 0 to 11 of Image32Bit. */
  lemma Image32BitLayout1()
    ensures |Image32BitWidths()| == 30
    ensures Image32BitWidths()[0] == 2 && Offset(Image32BitWidths(), 1) == 2
    ensures Image32BitWidths()[1] == 1 && Offset(Image32BitWidths(), 2) == 3
    ensures Image32BitWidths()[2] == 1 && Offset(Image32BitWidths(), 3) == 4
    ensures Image32BitWidths()[3] == 4 && Offset(Image32BitWidths(), 4) == 8
    ensures Image32BitWidths()[4] == 4 && Offset(Image32BitWidths(), 5) == 12
    ensures Image32BitWidths()[5] == 4 && Offset(Image32BitWidths(), 6) == 16
    ensures Image32BitWidths()[6] == 4 && Offset(Image32BitWidths(), 7) == 20
    ensures Image32BitWidths()[7] == 4 && Offset(Image32BitWidths(), 8) == 24
    ensures Image32BitWidths()[8] == 4 && Offset(Image32BitWidths(), 9) == 28
    ensures Image32BitWidths()[9] == 4 && Offset(Image32BitWidths(), 10) == 32
    ensures Image32BitWidths()[10] == 4 && Offset(Image32BitWidths(), 11) == 36
    ensures Image32BitWidths()[11] == 4 && Offset(Image32BitWidths(), 12) == 40
  {
    var w := Image32BitWidths();
    Image32BitLayout0();
    assert Offset(w, 7) == 20;
    assert Offset(w, 8) == 24;
    assert Offset(w, 9) == 28;
    assert Offset(w, 10) == 32;
    assert Offset(w, 11) == 36;
    assert Offset(w, 12) == 40;
  }

  /** Widths and offsets of fields 0 to 17 of Image32Bit. */
  lemma Image32BitLayout2()
    ensures |Image32BitWidths()| == 30
    ensures Image32BitWidths()[0] == 2 && Offset(Image32BitWidths(), 1) == 2
    ensures Image32BitWidths()[1] == 1 && Offset(Image32BitWidths(), 2) == 3
    ensures Image32BitWidths()[2] == 1 && Offset(Image32BitWidths(), 3) == 4
    ensures Image32BitWidths()[3] == 4 && Offset(Image32BitWidths(), 4) == 8
    ensures Image32BitWidths()[4] == 4 && Offset(Image32BitWidths(), 5) == 12
    ensures Image32BitWidths()[5] == 4 && Offset(Image32BitWidths(), 6) == 16
    ensures Image32BitWidths()[6] == 4 && Offset(Image32BitWidths(), 7) == 20
    ensures Image32BitWidths()[7] == 4 && Offset(Image32BitWidths(), 8) == 24
    ensures Image32BitWidths()[8] == 4 && Offset(Image32BitWidths(), 9) == 28
    ensures Image32BitWidths()[9] == 4 && Offset(Image32BitWidths(), 10) == 32
    ensures Image32BitWidths()[10] == 4 && Offset(Image32BitWidths(), 11) == 36
    ensures Image32BitWidths()[11] == 4 && Offset(Image32BitWidths(), 12) == 40
    ensures Image32BitWidths()[12] == 2 && Offset(Image32BitWidths(), 13) == 42
    ensures Image32BitWidths()[13] == 2 && Offset(Image32BitWidths(), 14) == 44
    ensures Image32BitWidths()[14] == 2 && Offset(Image32BitWidths(), 15) == 46
    ensures Image32BitWidths()[15] == 2 && Offset(Image32BitWidths(), 16) == 48
    ensures Image32BitWidths()[16] == 2 && Offset(Image32BitWidths(), 17) == 50
    ensures Image32BitWidths()[17] == 2 && Offset(Image32BitWidths(), 18) == 52
  {
    var w := Image32BitWidths();
    Image32BitLayout1();
    assert Offset(w, 13) == 42;
    assert Offset(w, 14) == 44;
    assert Offset(w, 15) == 46;
    assert Offset(w, 16) == 48;
    assert Offset(w, 17) == 50;
    assert Offset(w, 18) == 52;
  }

  /** Widths and offsets of fields 0 to 23 of Image32Bit. */
  lemma Image32BitLayout3()
    ensures |Image32BitWidths()| == 30
    ensures Image32BitWidths()[0] == 2 && Offset(Image32BitWidths(), 1) == 2
    ensures Image32BitWidths()[1] == 1 && Offset(Image32BitWidths(), 2) == 3
    ensures Image32BitWidths()[2] == 1 && Offset(Image32BitWidths(), 3) == 4
    ensures Image32BitWidths()[3] == 4 && Offset(Image32BitWidths(), 4) == 8
    ensures Image32BitWidths()[4] == 4 && Offset(Image32BitWidths(), 5) == 12
    ensures Image32BitWidths()[5] == 4 && Offset(Image32BitWidths(), 6) == 16
    ensures Image32BitWidths()[6] == 4 && Offset(Image32BitWidths(), 7) == 20
    ensures Image32BitWidths()[7] == 4 && Offset(Image32BitWidths(), 8) == 24
    ensures Image32BitWidths()[8] == 4 && Offset(Image32BitWidths(), 9) == 28
    ensures Image32BitWidths()[9] == 4 && Offset(Image32BitWidths(), 10) == 32
    ensures Image32BitWidths()[10] == 4 && Offset(Image32BitWidths(), 11) == 36
    ensures Image32BitWidths()[11] == 4 && Offset(Image32BitWidths(), 12) == 40
    ensures Image32BitWidths()[12] == 2 && Offset(Image32BitWidths(), 13) == 42
    ensures Image32BitWidths()[13] == 2 && Offset(Image32BitWidths(), 14) == 44
    ensures Image32BitWidths()[14] == 2 && Offset(Image32BitWidths(), 15) == 46
    ensures Image32BitWidths()[15] == 2 && Offset(Image32BitWidths(), 16) == 48
    ensures Image32BitWidths()[16] == 2 && Offset(Image32BitWidths(), 17) == 50
    ensures Image32BitWidths()[17] == 2 && Offset(Image32BitWidths(), 18) == 52
    ensures Image32BitWidths()[18] == 4 && Offset(Image32BitWidths(), 19) == 56
    ensures Image32BitWidths()[19] == 4 && Offset(Image32BitWidths(), 20) == 60
    ensures Image32BitWidths()[20] == 4 && Offset(Image32BitWidths(), 21) == 64
    ensures Image32BitWidths()[21] == 4 && Offset(Image32BitWidths(), 22) == 68
    ensures Image32BitWidths()[22] == 2 && Offset(Image32BitWidths(), 23) == 70
    ensures Image32BitWidths()[23] == 2 && Offset(Image32BitWidths(), 24) == 72
  {
    var w := Image32BitWidths();
    Image32BitLayout2();
    assert Offset(w, 19) == 56;
    assert Offset(w, 20) == 60;
    assert Offset(w, 21) == 64;
    assert Offset(w, 22) == 68;
    assert Offset(w, 23) == 70;
    assert Offset(w, 24) == 72;
  }

  /** Image32Bit has 30 fields, is 96 bytes, and its fields have their declared widths and offsets. */
  lemma Image32BitLayout()
    ensures |Image32BitWidths()| == 30
    ensures Size(Image32BitWidths()) == Image32BitSize
    ensures Image32BitWidths()[0] == 2 && Offset(Image32BitWidths(), 1) == 2
    ensures Image32BitWidths()[1] == 1 && Offset(Image32BitWidths(), 2) == 3
    ensures Image32BitWidths()[2] == 1 && Offset(Image32BitWidths(), 3) == 4
    ensures Image32BitWidths()[3] == 4 && Offset(Image32BitWidths(), 4) == 8
    ensures Image32BitWidths()[4] == 4 && Offset(Image32BitWidths(), 5) == 12
    ensures Image32BitWidths()[5] == 4 && Offset(Image32BitWidths(), 6) == 16
    ensures Image32BitWidths()[6] == 4 && Offset(Image32BitWidths(), 7) == 20
    ensures Image32BitWidths()[7] == 4 && Offset(Image32BitWidths(), 8) == 24
    ensures Image32BitWidths()[8] == 4 && Offset(Image32BitWidths(), 9) == 28
    ensures Image32BitWidths()[9] == 4 && Offset(Image32BitWidths(), 10) == 32
    ensures Image32BitWidths()[10] == 4 && Offset(Image32BitWidths(), 11) == 36
    ensures Image32BitWidths()[11] == 4 && Offset(Image32BitWidths(), 12) == 40
    ensures Image32BitWidths()[12] == 2 && Offset(Image32BitWidths(), 13) == 42
    ensures Image32BitWidths()[13] == 2 && Offset(Image32BitWidths(), 14) == 44
    ensures Image32BitWidths()[14] == 2 && Offset(Image32BitWidths(), 15) == 46
    ensures Image32BitWidths()[15] == 2 && Offset(Image32BitWidths(), 16) == 48
    ensures Image32BitWidths()[16] == 2 && Offset(Image32BitWidths(), 17) == 50
    ensures Image32BitWidths()[17] == 2 && Offset(Image32BitWidths(), 18) == 52
    ensures Image32BitWidths()[18] == 4 && Offset(Image32BitWidths(), 19) == 56
    ensures Image32BitWidths()[19] == 4 && Offset(Image32BitWidths(), 20) == 60
    ensures Image32BitWidths()[20] == 4 && Offset(Image32BitWidths(), 21) == 64
    ensures Image32BitWidths()[21] == 4 && Offset(Image32BitWidths(), 22) == 68
    ensures Image32BitWidths()[22] == 2 && Offset(Image32BitWidths(), 23) == 70
    ensures Image32BitWidths()[23] == 2 && Offset(Image32BitWidths(), 24) == 72
    ensures Image32BitWidths()[24] == 4 && Offset(Image32BitWidths(), 25) == 76
    ensures Image32BitWidths()[25] == 4 && Offset(Image32BitWidths(), 26) == 80
    ensures Image32BitWidths()[26] == 4 && Offset(Image32BitWidths(), 27) == 84
    ensures Image32BitWidths()[27] == 4 && Offset(Image32BitWidths(), 28) == 88
    ensures Image32BitWidths()[28] == 4 && Offset(Image32BitWidths(), 29) == 92
    ensures Image32BitWidths()[29] == 4 && Offset(Image32BitWidths(), 30) == 96
  {
    var w := Image32BitWidths();
    Image32BitLayout3();
    assert Offset(w, 25) == 76;
    assert Offset(w, 26) == 80;
    assert Offset(w, 27) == 84;
    assert Offset(w, 28) == 88;
    assert Offset(w, 29) == 92;
    assert Offset(w, 30) == 96;
  }

  /** Decode an Image32Bit from exactly its 96 packed bytes. */
  function DecodeImage32Bit(s: seq<byte>): (x: Image32Bit)
    requires |s| == Image32BitSize
    ensures x.magic == DecodeLE(s[0..2])
    ensures x.numberOfRvaAndSizes == DecodeLE(s[92..96])
  {
    Image32Bit(
      U16At(s, 0),
      s[2],
      s[3],
      U32At(s, 4),
      U32At(s, 8),
      U32At(s, 12),
      U32At(s, 16),
      U32At(s, 20),
      U32At(s, 24),
      U32At(s, 28),
      U32At(s, 32),
      U32At(s, 36),
      U16At(s, 40),
      U16At(s, 42),
      U16At(s, 44),
      U16At(s, 46),
      U16At(s, 48),
      U16At(s, 50),
      U32At(s, 52),
      U32At(s, 56),
      U32At(s, 60),
      U32At(s, 64),
      U16At(s, 68),
      U16At(s, 70),
      U32At(s, 72),
      U32At(s, 76),
      U32At(s, 80),
      U32At(s, 84),
      U32At(s, 88),
      U32At(s, 92))
  }

  /** Fields 0 to 3 of a decoded Image32Bit are those of its generic layout. */
  lemma Image32BitDecodeLayout0(s: seq<byte>)
    requires |s| == Image32BitSize
    ensures |Image32BitWidths()| == 30 && Size(Image32BitWidths()) == Image32BitSize
    ensures var d := DecodeFields(s, Image32BitWidths()); var x := DecodeImage32Bit(s);
      d[0] == x.magic && d[1] == x.majorLinkerVersion && d[2] == x.minorLinkerVersion && d[3] == x.sizeOfCode
  {
    Image32BitLayout();
    var x := DecodeImage32Bit(s);
    DecodeLEOne(s[2..3]);
    DecodeLEOne(s[3..4]);
  }

  /** Fields 4 to 7 of a decoded Image32Bit are those of its generic layout. */
  lemma Image32BitDecodeLayout1(s: seq<byte>)
    requires |s| == Image32BitSize
    ensures |Image32BitWidths()| == 30 && Size(Image32BitWidths()) == Image32BitSize
    ensures var d := DecodeFields(s, Image32BitWidths()); var x := DecodeImage32Bit(s);
      d[4] == x.sizeOfInitializedData && d[5] == x.sizeOfUninitializedData && d[6] == x.addressOfEntryPoint && d[7] == x.baseOfCode
  {
    Image32BitLayout();
  }

  /** Fields 8 to 11 of a decoded Image32Bit are those of its generic layout. */
  lemma Image32BitDecodeLayout2(s: seq<byte>)
    requires |s| == Image32BitSize
    ensures |Image32BitWidths()| == 30 && Size(Image32BitWidths()) == Image32BitSize
    ensures var d := DecodeFields(s, Image32BitWidths()); var x := DecodeImage32Bit(s);
      d[8] == x.baseOfData && d[9] == x.imageBase && d[10] == x.sectionAlignment && d[11] == x.fileAlignment
  {
    Image32BitLayout();
  }

  /** Fields 12 to 15 of a decoded Image32Bit are those of its generic layout. */
  lemma Image32BitDecodeLayout3(s: seq<byte>)
    requires |s| == Image32BitSize
    ensures |Image32BitWidths()| == 30 && Size(Image32BitWidths()) == Image32BitSize
    ensures var d := DecodeFields(s, Image32BitWidths()); var x := DecodeImage32Bit(s);
      d[12] == x.majorOperatingSystemVersion && d[13] == x.minorOperatingSystemVersion && d[14] == x.majorImageVersion && d[15] == x.minorImageVersion
  {
    Image32BitLayout();
  }

  /** Fields 16 to 19 of a decoded Image32Bit are those of its generic layout. */
  lemma Image32BitDecodeLayout4(s: seq<byte>)
    requires |s| == Image32BitSize
    ensures |Image32BitWidths()| == 30 && Size(Image32BitWidths()) == Image32BitSize
    ensures var d := DecodeFields(s, Image32BitWidths()); var x := DecodeImage32Bit(s);
      d[16] == x.majorSubsystemVersion && d[17] == x.minorSubsystemVersion && d[18] == x.win32VersionValue && d[19] == x.sizeOfImage
  {
    Image32BitLayout();
  }

  /** Fields 20 to 23 of a decoded Image32Bit are those of its generic layout. */
  lemma Image32BitDecodeLayout5(s: seq<byte>)
    requires |s| == Image32BitSize
    ensures |Image32BitWidths()| == 30 && Size(Image32BitWidths()) == Image32BitSize
    ensures var d := DecodeFields(s, Image32BitWidths()); var x := DecodeImage32Bit(s);
      d[20] == x.sizeOfHeaders && d[21] == x.checkSum && d[22] == x.subsystem && d[23] == x.dllCharacteristics
  {
    Image32BitLayout();
  }

  /** Fields 24 to 27 of a decoded Image32Bit are those of its generic layout. */
  lemma Image32BitDecodeLayout6(s: seq<byte>)
    requires |s| == Image32BitSize
    ensures |Image32BitWidths()| == 30 && Size(Image32BitWidths()) == Image32BitSize
    ensures var d := DecodeFields(s, Image32BitWidths()); var x := DecodeImage32Bit(s);
      d[24] == x.sizeOfStackReserve && d[25] == x.sizeOfStackCommit && d[26] == x.sizeOfHeapReserve && d[27] == x.sizeOfHeapCommit
  {
    Image32BitLayout();
  }

  /** Fields 28 to 29 of a decoded Image32Bit are those of its generic layout. */
  lemma Image32BitDecodeLayout7(s: seq<byte>)
    requires |s| == Image32BitSize
    ensures |Image32BitWidths()| == 30 && Size(Image32BitWidths()) == Image32BitSize
    ensures var d := DecodeFields(s, Image32BitWidths()); var x := DecodeImage32Bit(s);
      d[28] == x.loaderFlags && d[29] == x.numberOfRvaAndSizes
  {
    Image32BitLayout();
  }

  /** Fields 0 to 3 of an encoded Image32Bit decode to their values. */
  lemma Image32BitFieldsRoundTrip0(x: Image32Bit)
    ensures |Image32BitFields(x)| == |Image32BitWidths()|
    ensures var d := DecodeFields(EncodeFields(Image32BitFields(x), Image32BitWidths()), Image32BitWidths());
      |d| == 30 && d[0] == x.magic && d[1] == x.majorLinkerVersion && d[2] == x.minorLinkerVersion && d[3] == x.sizeOfCode
  {
    var w := Image32BitWidths();
    Image32BitLayout();
    Pow256Values();
    var f := Image32BitFields(x);
    DecodeEncodeField(f, w, 0);
    DecodeEncodeField(f, w, 1);
    DecodeEncodeField(f, w, 2);
    DecodeEncodeField(f, w, 3);
  }

  /** Fields 4 to 7 of an encoded Image32Bit decode to their values. */
  lemma Image32BitFieldsRoundTrip1(x: Image32Bit)
    ensures |Image32BitFields(x)| == |Image32BitWidths()|
    ensures var d := DecodeFields(EncodeFields(Image32BitFields(x), Image32BitWidths()), Image32BitWidths());
      |d| == 30 && d[4] == x.sizeOfInitializedData && d[5] == x.sizeOfUninitializedData && d[6] == x.addressOfEntryPoint && d[7] == x.baseOfCode
  {
    var w := Image32BitWidths();
    Image32BitLayout();
    Pow256Values();
    var f := Image32BitFields(x);
    DecodeEncodeField(f, w, 4);
    DecodeEncodeField(f, w, 5);
    DecodeEncodeField(f, w, 6);
    DecodeEncodeField(f, w, 7);
  }

  /** Fields 8 to 11 of an encoded Image32Bit decode to their values. */
  lemma Image32BitFieldsRoundTrip2(x: Image32Bit)
    ensures |Image32BitFields(x)| == |Image32BitWidths()|
    ensures var d := DecodeFields(EncodeFields(Image32BitFields(x), Image32BitWidths()), Image32BitWidths());
      |d| == 30 && d[8] == x.baseOfData && d[9] == x.imageBase && d[10] == x.sectionAlignment && d[11] == x.fileAlignment
  {
    var w := Image32BitWidths();
    Image32BitLayout();
    Pow256Values();
    var f := Image32BitFields(x);
    DecodeEncodeField(f, w, 8);
    DecodeEncodeField(f, w, 9);
    DecodeEncodeField(f, w, 10);
    DecodeEncodeField(f, w, 11);
  }

  /** Fields 12 to 15 of an encoded Image32Bit decode to their values. */
  lemma Image32BitFieldsRoundTrip3(x: Image32Bit)
    ensures |Image32BitFields(x)| == |Image32BitWidths()|
    ensures var d := DecodeFields(EncodeFields(Image32BitFields(x), Image32BitWidths()), Image32BitWidths());
      |d| == 30 && d[12] == x.majorOperatingSystemVersion && d[13] == x.minorOperatingSystemVersion && d[14] == x.majorImageVersion && d[15] == x.minorImageVersion
  {
    var w := Image32BitWidths();
    Image32BitLayout();
    Pow256Values();
    var f := Image32BitFields(x);
    DecodeEncodeField(f, w, 12);
    DecodeEncodeField(f, w, 13);
    DecodeEncodeField(f, w, 14);
    DecodeEncodeField(f, w, 15);
  }

  /** Fields 16 to 19 of an encoded Image32Bit decode to their values. */
  lemma Image32BitFieldsRoundTrip4(x: Image32Bit)
    ensures |Image32BitFields(x)| == |Image32BitWidths()|
    ensures var d := DecodeFields(EncodeFields(Image32BitFields(x), Image32BitWidths()), Image32BitWidths());
      |d| == 30 && d[16] == x.majorSubsystemVersion && d[17] == x.minorSubsystemVersion && d[18] == x.win32VersionValue && d[19] == x.sizeOfImage
  {
    var w := Image32BitWidths();
    Image32BitLayout();
    Pow256Values();
    var f := Image32BitFields(x);
    DecodeEncodeField(f, w, 16);
    DecodeEncodeField(f, w, 17);
    DecodeEncodeField(f, w, 18);
    DecodeEncodeField(f, w, 19);
  }

  /** Fields 20 to 23 of an encoded Image32Bit decode to their values. */
  lemma Image32BitFieldsRoundTrip5(x: Image32Bit)
    ensures |Image32BitFields(x)| == |Image32BitWidths()|
    ensures var d := DecodeFields(EncodeFields(Image32BitFields(x), Image32BitWidths()), Image32BitWidths());
      |d| == 30 && d[20] == x.sizeOfHeaders && d[21] == x.checkSum && d[22] == x.subsystem && d[23] == x.dllCharacteristics
  {
    var w := Image32BitWidths();
    Image32BitLayout();
    Pow256Values();
    var f := Image32BitFields(x);
    DecodeEncodeField(f, w, 20);
    DecodeEncodeField(f, w, 21);
    DecodeEncodeField(f, w, 22);
    DecodeEncodeField(f, w, 23);
  }

  /** Fields 24 to 27 of an encoded Image32Bit decode to their values. */
  lemma Image32BitFieldsRoundTrip6(x: Image32Bit)
    ensures |Image32BitFields(x)| == |Image32BitWidths()|
    ensures var d := DecodeFields(EncodeFields(Image32BitFields(x), Image32BitWidths()), Image32BitWidths());
      |d| == 30 && d[24] == x.sizeOfStackReserve && d[25] == x.sizeOfStackCommit && d[26] == x.sizeOfHeapReserve && d[27] == x.sizeOfHeapCommit
  {
    var w := Image32BitWidths();
    Image32BitLayout();
    Pow256Values();
    var f := Image32BitFields(x);
    DecodeEncodeField(f, w, 24);
    DecodeEncodeField(f, w, 25);
    DecodeEncodeField(f, w, 26);
    DecodeEncodeField(f, w, 27);
  }

  /** Fields 28 to 29 of an encoded Image32Bit decode to their values. */
  lemma Image32BitFieldsRoundTrip7(x: Image32Bit)
    ensures |Image32BitFields(x)| == |Image32BitWidths()|
    ensures var d := DecodeFields(EncodeFields(Image32BitFields(x), Image32BitWidths()), Image32BitWidths());
      |d| == 30 && d[28] == x.loaderFlags && d[29] == x.numberOfRvaAndSizes
  {
    var w := Image32BitWidths();
    Image32BitLayout();
    Pow256Values();
    var f := Image32BitFields(x);
    DecodeEncodeField(f, w, 28);
    DecodeEncodeField(f, w, 29);
  }

  /** Decoding the packed fields of an Image32Bit gives it back. */
  lemma Image32BitRoundTrip(x: Image32Bit)
    ensures |Image32BitFields(x)| == |Image32BitWidths()| && Size(Image32BitWidths()) == Image32BitSize
    ensures DecodeImage32Bit(EncodeFields(Image32BitFields(x), Image32BitWidths())) == x
  {
    Image32BitLayout();
    var s := EncodeFields(Image32BitFields(x), Image32BitWidths());
    Image32BitFieldsRoundTrip0(x);
    Image32BitDecodeLayout0(s);
    Image32BitFieldsRoundTrip1(x);
    Image32BitDecodeLayout1(s);
    Image32BitFieldsRoundTrip2(x);
    Image32BitDecodeLayout2(s);
    Image32BitFieldsRoundTrip3(x);
    Image32BitDecodeLayout3(s);
    Image32BitFieldsRoundTrip4(x);
    Image32BitDecodeLayout4(s);
    Image32BitFieldsRoundTrip5(x);
    Image32BitDecodeLayout5(s);
    Image32BitFieldsRoundTrip6(x);
    Image32BitDecodeLayout6(s);
    Image32BitFieldsRoundTrip7(x);
    Image32BitDecodeLayout7(s);
  }

  /** The 96 packed bytes of an Image32Bit; decoding them gives it back. */
  function EncodeImage32Bit(x: Image32Bit): (s: seq<byte>)
    ensures |s| == Image32BitSize
    ensures DecodeImage32Bit(s) == x
  {
    Image32BitRoundTrip(x);
    EncodeFields(Image32BitFields(x), Image32BitWidths())
  }

  /** The field values of `x` in order are `d`, given each one. */
  lemma Image32BitFieldsAre(x: Image32Bit, d: seq<nat>)
    requires |d| == 30
    requires d[0] == x.magic && d[1] == x.majorLinkerVersion && d[2] == x.minorLinkerVersion && d[3] == x.sizeOfCode
    requires d[4] == x.sizeOfInitializedData && d[5] == x.sizeOfUninitializedData && d[6] == x.addressOfEntryPoint && d[7] == x.baseOfCode
    requires d[8] == x.baseOfData && d[9] == x.imageBase && d[10] == x.sectionAlignment && d[11] == x.fileAlignment
    requires d[12] == x.majorOperatingSystemVersion && d[13] == x.minorOperatingSystemVersion && d[14] == x.majorImageVersion && d[15] == x.minorImageVersion
    requires d[16] == x.majorSubsystemVersion && d[17] == x.minorSubsystemVersion && d[18] == x.win32VersionValue && d[19] == x.sizeOfImage
    requires d[20] == x.sizeOfHeaders && d[21] == x.checkSum && d[22] == x.subsystem && d[23] == x.dllCharacteristics
    requires d[24] == x.sizeOfStackReserve && d[25] == x.sizeOfStackCommit && d[26] == x.sizeOfHeapReserve && d[27] == x.sizeOfHeapCommit
    requires d[28] == x.loaderFlags && d[29] == x.numberOfRvaAndSizes
    ensures Image32BitFields(x) == d
  {
  }

  /** Encoding the Image32Bit decoded from `s` gives back `s`: the packed
      layout has no padding and drops no byte. */
  lemma Image32BitDecodeRoundTrip(s: seq<byte>)
    requires |s| == Image32BitSize
    ensures EncodeImage32Bit(DecodeImage32Bit(s)) == s
  {
    Image32BitDecodeLayout0(s);
    Image32BitDecodeLayout1(s);
    Image32BitDecodeLayout2(s);
    Image32BitDecodeLayout3(s);
    Image32BitDecodeLayout4(s);
    Image32BitDecodeLayout5(s);
    Image32BitDecodeLayout6(s);
    Image32BitDecodeLayout7(s);
    Image32BitFieldsAre(DecodeImage32Bit(s), DecodeFields(s, Image32BitWidths()));
    EncodeDecodeFields(s, Image32BitWidths());
  }

  // ---------------------------------------------------------------- SectionTable

  /** Field widths of the section header, which maps a virtual range to a range of file bytes. */
  function SectionTableWidths(): Widths
  {
    [1, 1, 1, 1, 1, 1, 1, 1, 4, 4, 4, 4, 4, 4, 2, 2, 4]
  }

  const SectionTableSize: nat := 40

  datatype SectionTable = SectionTable(
    name: SectionName,
    virtualSize: u32,
    virtualAddress: u32,
    sizeOfRawData: u32,
    pointerToRawData: u32,
    pointerToRelocations: u32,
    pointerToLineNumbers: u32,
    numberOfRelocations: u16,
    numberOfLineNumbers: u16,
    characteristics: u32)

  /** The field values of a SectionTable in declaration order, the name byte by byte. */
  function SectionTableFields(x: SectionTable): seq<nat>
  {
    [x.name[0], x.name[1], x.name[2], x.name[3], x.name[4], x.name[5], x.name[6], x.name[7], x.virtualSize, x.virtualAddress, x.sizeOfRawData, x.pointerToRawData, x.pointerToRelocations, x.pointerToLineNumbers, x.numberOfRelocations, x.numberOfLineNumbers, x.characteristics]
  }

  /** Widths and offsets of fields 0 to 5 of SectionTable. */
  lemma SectionTableLayout0()
    ensures |SectionTableWidths()| == 17
    ensures SectionTableWidths()[0] == 1 && Offset(SectionTableWidths(), 1) == 1
    ensures SectionTableWidths()[1] == 1 && Offset(SectionTableWidths(), 2) == 2
    ensures SectionTableWidths()[2] == 1 && Offset(SectionTableWidths(), 3) == 3
    ensures SectionTableWidths()[3] == 1 && Offset(SectionTableWidths(), 4) == 4
    ensures SectionTableWidths()[4] == 1 && Offset(SectionTableWidths(), 5) == 5
    ensures SectionTableWidths()[5] == 1 && Offset(SectionTableWidths(), 6) == 6
  {
    var w := SectionTableWidths();
    assert Offset(w, 1) == 1;
    assert Offset(w, 2) == 2;
    assert Offset(w, 3) == 3;
    assert Offset(w, 4) == 4;
    assert Offset(w, 5) == 5;
    assert Offset(w, 6) == 6;
  }

  /** Widths and offsets of fields 0 to 11 of SectionTable. */
  lemma SectionTableLayout1()
    ensures |SectionTableWidths()| == 17
    ensures SectionTableWidths()[0] == 1 && Offset(SectionTableWidths(), 1) == 1
    ensures SectionTableWidths()[1] == 1 && Offset(SectionTableWidths(), 2) == 2
    ensures SectionTableWidths()[2] == 1 && Offset(SectionTableWidths(), 3) == 3
    ensures SectionTableWidths()[3] == 1 && Offset(SectionTableWidths(), 4) == 4
    ensures SectionTableWidths()[4] == 1 && Offset(SectionTableWidths(), 5) == 5
    ensures SectionTableWidths()[5] == 1 && Offset(SectionTableWidths(), 6) == 6
    ensures SectionTableWidths()[6] == 1 && Offset(SectionTableWidths(), 7) == 7
    ensures SectionTableWidths()[7] == 1 && Offset(SectionTableWidths(), 8) == 8
    ensures SectionTableWidths()[8] == 4 && Offset(SectionTableWidths(), 9) == 12
    ensures SectionTableWidths()[9] == 4 && Offset(SectionTableWidths(), 10) == 16
    ensures SectionTableWidths()[10] == 4 && Offset(SectionTableWidths(), 11) == 20
    ensures SectionTableWidths()[11] == 4 && Offset(SectionTableWidths(), 12) == 24
  {
    var w := SectionTableWidths();
    SectionTableLayout0();
    assert Offset(w, 7) == 7;
    assert Offset(w, 8) == 8;
    assert Offset(w, 9) == 12;
    assert Offset(w, 10) == 16;
    assert Offset(w, 11) == 20;
    assert Offset(w, 12) == 24;
  }

  /** SectionTable has 17 fields, is 40 bytes, and its fields have their declared widths and offsets. */
  lemma SectionTableLayout()
    ensures |SectionTableWidths()| == 17
    ensures Size(SectionTableWidths()) == SectionTableSize
    ensures SectionTableWidths()[0] == 1 && Offset(SectionTableWidths(), 1) == 1
    ensures SectionTableWidths()[1] == 1 && Offset(SectionTableWidths(), 2) == 2
    ensures SectionTableWidths()[2] == 1 && Offset(SectionTableWidths(), 3) == 3
    ensures SectionTableWidths()[3] == 1 && Offset(SectionTableWidths(), 4) == 4
    ensures SectionTableWidths()[4] == 1 && Offset(SectionTableWidths(), 5) == 5
    ensures SectionTableWidths()[5] == 1 && Offset(SectionTableWidths(), 6) == 6
    ensures SectionTableWidths()[6] == 1 && Offset(SectionTableWidths(), 7) == 7
    ensures SectionTableWidths()[7] == 1 && Offset(SectionTableWidths(), 8) == 8
    ensures SectionTableWidths()[8] == 4 && Offset(SectionTableWidths(), 9) == 12
    ensures SectionTableWidths()[9] == 4 && Offset(SectionTableWidths(), 10) == 16
    ensures SectionTableWidths()[10] == 4 && Offset(SectionTableWidths(), 11) == 20
    ensures SectionTableWidths()[11] == 4 && Offset(SectionTableWidths(), 12) == 24
    ensures SectionTableWidths()[12] == 4 && Offset(SectionTableWidths(), 13) == 28
    ensures SectionTableWidths()[13] == 4 && Offset(SectionTableWidths(), 14) == 32
    ensures SectionTableWidths()[14] == 2 && Offset(SectionTableWidths(), 15) == 34
    ensures SectionTableWidths()[15] == 2 && Offset(SectionTableWidths(), 16) == 36
    ensures SectionTableWidths()[16] == 4 && Offset(SectionTableWidths(), 17) == 40
  {
    var w := SectionTableWidths();
    SectionTableLayout1();
    assert Offset(w, 13) == 28;
    assert Offset(w, 14) == 32;
    assert Offset(w, 15) == 34;
    assert Offset(w, 16) == 36;
    assert Offset(w, 17) == 40;
  }

  /** Decode a SectionTable from exactly its 40 packed bytes. */
  function DecodeSectionTable(s: seq<byte>): (x: SectionTable)
    requires |s| == SectionTableSize
    ensures x.virtualSize == DecodeLE(s[8..12])
    ensures x.virtualAddress == DecodeLE(s[12..16])
    ensures x.pointerToRawData == DecodeLE(s[20..24])
  {
    SectionTable(
      s[0..8],
      U32At(s, 8),
      U32At(s, 12),
      U32At(s, 16),
      U32At(s, 20),
      U32At(s, 24),
      U32At(s, 28),
      U16At(s, 32),
      U16At(s, 34),
      U32At(s, 36))
  }

  /** Fields 0 to 3 of a decoded SectionTable are those of its generic layout. */
  lemma SectionTableDecodeLayout0(s: seq<byte>)
    requires |s| == SectionTableSize
    ensures |SectionTableWidths()| == 17 && Size(SectionTableWidths()) == SectionTableSize
    ensures var d := DecodeFields(s, SectionTableWidths()); var x := DecodeSectionTable(s);
      d[0] == x.name[0] && d[1] == x.name[1] && d[2] == x.name[2] && d[3] == x.name[3]
  {
    SectionTableLayout();
    var x := DecodeSectionTable(s);
    DecodeLEOne(s[0..1]);
    DecodeLEOne(s[1..2]);
    DecodeLEOne(s[2..3]);
    DecodeLEOne(s[3..4]);
  }

  /** Fields 4 to 7 of a decoded SectionTable are those of its generic layout. */
  lemma SectionTableDecodeLayout1(s: seq<byte>)
    requires |s| == SectionTableSize
    ensures |SectionTableWidths()| == 17 && Size(SectionTableWidths()) == SectionTableSize
    ensures var d := DecodeFields(s, SectionTableWidths()); var x := DecodeSectionTable(s);
      d[4] == x.name[4] && d[5] == x.name[5] && d[6] == x.name[6] && d[7] == x.name[7]
  {
    SectionTableLayout();
    var x := DecodeSectionTable(s);
    DecodeLEOne(s[4..5]);
    DecodeLEOne(s[5..6]);
    DecodeLEOne(s[6..7]);
    DecodeLEOne(s[7..8]);
  }

  /** Fields 8 to 11 of a decoded SectionTable are those of its generic layout. */
  lemma SectionTableDecodeLayout2(s: seq<byte>)
    requires |s| == SectionTableSize
    ensures |SectionTableWidths()| == 17 && Size(SectionTableWidths()) == SectionTableSize
    ensures var d := DecodeFields(s, SectionTableWidths()); var x := DecodeSectionTable(s);
      d[8] == x.virtualSize && d[9] == x.virtualAddress && d[10] == x.sizeOfRawData && d[11] == x.pointerToRawData
  {
    SectionTableLayout();
  }

  /** Fields 12 to 15 of a decoded SectionTable are those of its generic layout. */
  lemma SectionTableDecodeLayout3(s: seq<byte>)
    requires |s| == SectionTableSize
    ensures |SectionTableWidths()| == 17 && Size(SectionTableWidths()) == SectionTableSize
    ensures var d := DecodeFields(s, SectionTableWidths()); var x := DecodeSectionTable(s);
      d[12] == x.pointerToRelocations && d[13] == x.pointerToLineNumbers && d[14] == x.numberOfRelocations && d[15] == x.numberOfLineNumbers
  {
    SectionTableLayout();
  }

  /** Field 16 of a decoded SectionTable is that of its generic layout. */
  lemma SectionTableDecodeLayout4(s: seq<byte>)
    requires |s| == SectionTableSize
    ensures |SectionTableWidths()| == 17 && Size(SectionTableWidths()) == SectionTableSize
    ensures var d := DecodeFields(s, SectionTableWidths()); var x := DecodeSectionTable(s);
      d[16] == x.characteristics
  {
    SectionTableLayout();
  }

  /** Fields 0 to 3 of an encoded SectionTable decode to their values. */
  lemma SectionTableFieldsRoundTrip0(x: SectionTable)
    ensures |SectionTableFields(x)| == |SectionTableWidths()|
    ensures var d := DecodeFields(EncodeFields(SectionTableFields(x), SectionTableWidths()), SectionTableWidths());
      |d| == 17 && d[0] == x.name[0] && d[1] == x.name[1] && d[2] == x.name[2] && d[3] == x.name[3]
  {
    var w := SectionTableWidths();
    SectionTableLayout();
    Pow256Values();
    var f := SectionTableFields(x);
    DecodeEncodeField(f, w, 0);
    DecodeEncodeField(f, w, 1);
    DecodeEncodeField(f, w, 2);
    DecodeEncodeField(f, w, 3);
  }

  /** Fields 4 to 7 of an encoded SectionTable decode to their values. */
  lemma SectionTableFieldsRoundTrip1(x: SectionTable)
    ensures |SectionTableFields(x)| == |SectionTableWidths()|
    ensures var d := DecodeFields(EncodeFields(SectionTableFields(x), SectionTableWidths()), SectionTableWidths());
      |d| == 17 && d[4] == x.name[4] && d[5] == x.name[5] && d[6] == x.name[6] && d[7] == x.name[7]
  {
    var w := SectionTableWidths();
    SectionTableLayout();
    Pow256Values();
    var f := SectionTableFields(x);
    DecodeEncodeField(f, w, 4);
    DecodeEncodeField(f, w, 5);
    DecodeEncodeField(f, w, 6);
    DecodeEncodeField(f, w, 7);
  }

  /** Fields 8 to 11 of an encoded SectionTable decode to their values. */
  lemma SectionTableFieldsRoundTrip2(x: SectionTable)
    ensures |SectionTableFields(x)| == |SectionTableWidths()|
    ensures var d := DecodeFields(EncodeFields(SectionTableFields(x), SectionTableWidths()), SectionTableWidths());
      |d| == 17 && d[8] == x.virtualSize && d[9] == x.virtualAddress && d[10] == x.sizeOfRawData && d[11] == x.pointerToRawData
  {
    var w := SectionTableWidths();
    SectionTableLayout();
    Pow256Values();
    var f := SectionTableFields(x);
    DecodeEncodeField(f, w, 8);
    DecodeEncodeField(f, w, 9);
    DecodeEncodeField(f, w, 10);
    DecodeEncodeField(f, w, 11);
  }

  /** Fields 12 to 15 of an encoded SectionTable decode to their values. */
  lemma SectionTableFieldsRoundTrip3(x: SectionTable)
    ensures |SectionTableFields(x)| == |SectionTableWidths()|
    ensures var d := DecodeFields(EncodeFields(SectionTableFields(x), SectionTableWidths()), SectionTableWidths());
      |d| == 17 && d[12] == x.pointerToRelocations && d[13] == x.pointerToLineNumbers && d[14] == x.numberOfRelocations && d[15] == x.numberOfLineNumbers
  {
    var w := SectionTableWidths();
    SectionTableLayout();
    Pow256Values();
    var f := SectionTableFields(x);
    DecodeEncodeField(f, w, 12);
    DecodeEncodeField(f, w, 13);
    DecodeEncodeField(f, w, 14);
    DecodeEncodeField(f, w, 15);
  }

  /** Field 16 of an encoded SectionTable decodes to its value. */
  lemma SectionTableFieldsRoundTrip4(x: SectionTable)
    ensures |SectionTableFields(x)| == |SectionTableWidths()|
    ensures var d := DecodeFields(EncodeFields(SectionTableFields(x), SectionTableWidths()), SectionTableWidths());
      |d| == 17 && d[16] == x.characteristics
  {
    var w := SectionTableWidths();
    SectionTableLayout();
    Pow256Values();
    var f := SectionTableFields(x);
    DecodeEncodeField(f, w, 16);
  }

  /** Decoding the packed fields of a SectionTable gives it back. */
  lemma SectionTableRoundTrip(x: SectionTable)
    ensures |SectionTableFields(x)| == |SectionTableWidths()| && Size(SectionTableWidths()) == SectionTableSize
    ensures DecodeSectionTable(EncodeFields(SectionTableFields(x), SectionTableWidths())) == x
  {
    SectionTableLayout();
    var s := EncodeFields(SectionTableFields(x), SectionTableWidths());
    SectionTableFieldsRoundTrip0(x);
    SectionTableDecodeLayout0(s);
    SectionTableFieldsRoundTrip1(x);
    SectionTableDecodeLayout1(s);
    SectionTableFieldsRoundTrip2(x);
    SectionTableDecodeLayout2(s);
    SectionTableFieldsRoundTrip3(x);
    SectionTableDecodeLayout3(s);
    SectionTableFieldsRoundTrip4(x);
    SectionTableDecodeLayout4(s);
    assert DecodeSectionTable(s).name == x.name;
  }

  /** The 40 packed bytes of a SectionTable; decoding them gives it back. */
  function EncodeSectionTable(x: SectionTable): (s: seq<byte>)
    ensures |s| == SectionTableSize
    ensures DecodeSectionTable(s) == x
  {
    SectionTableRoundTrip(x);
    EncodeFields(SectionTableFields(x), SectionTableWidths())
  }

  /** The field values of `x` in order are `d`, given each one. */
  lemma SectionTableFieldsAre(x: SectionTable, d: seq<nat>)
    requires |d| == 17
    requires d[0] == x.name[0] && d[1] == x.name[1] && d[2] == x.name[2] && d[3] == x.name[3]
    requires d[4] == x.name[4] && d[5] == x.name[5] && d[6] == x.name[6] && d[7] == x.name[7]
    requires d[8] == x.virtualSize && d[9] == x.virtualAddress && d[10] == x.sizeOfRawData && d[11] == x.pointerToRawData
    requires d[12] == x.pointerToRelocations && d[13] == x.pointerToLineNumbers && d[14] == x.numberOfRelocations && d[15] == x.numberOfLineNumbers
    requires d[16] == x.characteristics
    ensures SectionTableFields(x) == d
  {
  }

  /** Encoding the SectionTable decoded from `s` gives back `s`: the packed
      layout has no padding and drops no byte. */
  lemma SectionTableDecodeRoundTrip(s: seq<byte>)
    requires |s| == SectionTableSize
    ensures EncodeSectionTable(DecodeSectionTable(s)) == s
  {
    SectionTableDecodeLayout0(s);
    SectionTableDecodeLayout1(s);
    SectionTableDecodeLayout2(s);
    SectionTableDecodeLayout3(s);
    SectionTableDecodeLayout4(s);
    SectionTableFieldsAre(DecodeSectionTable(s), DecodeFields(s, SectionTableWidths()));
    EncodeDecodeFields(s, SectionTableWidths());
  }

  // ---------------------------------------------------------------- ImageDataDirectory

  /** Field widths of the data directory entry, the RVA and size of one table. */
  function ImageDataDirectoryWidths(): Widths
  {
    [4, 4]
  }

  const ImageDataDirectorySize: nat := 8

  datatype ImageDataDirectory = ImageDataDirectory(
    virtualAddress: u32,
    size: u32)

  /** The field values of an ImageDataDirectory in declaration order. */
  function ImageDataDirectoryFields(x: ImageDataDirectory): seq<nat>
  {
    [x.virtualAddress, x.size]
  }

  /** ImageDataDirectory has 2 fields, is 8 bytes, and its fields have their declared widths and offsets. */
  lemma ImageDataDirectoryLayout()
    ensures |ImageDataDirectoryWidths()| == 2
    ensures Size(ImageDataDirectoryWidths()) == ImageDataDirectorySize
    ensures ImageDataDirectoryWidths()[0] == 4 && Offset(ImageDataDirectoryWidths(), 1) == 4
    ensures ImageDataDirectoryWidths()[1] == 4 && Offset(ImageDataDirectoryWidths(), 2) == 8
  {
    var w := ImageDataDirectoryWidths();
    assert Offset(w, 1) == 4;
    assert Offset(w, 2) == 8;
  }

  /** Decode an ImageDataDirectory from exactly its 8 packed bytes. */
  function DecodeImageDataDirectory(s: seq<byte>): (x: ImageDataDirectory)
    requires |s| == ImageDataDirectorySize
    ensures x.virtualAddress == DecodeLE(s[0..4])
    ensures x.size == DecodeLE(s[4..8])
  {
    ImageDataDirectory(
      U32At(s, 0),
      U32At(s, 4))
  }

  /** Fields 0 to 1 of a decoded ImageDataDirectory are those of its generic layout. */
  lemma ImageDataDirectoryDecodeLayout0(s: seq<byte>)
    requires |s| == ImageDataDirectorySize
    ensures |ImageDataDirectoryWidths()| == 2 && Size(ImageDataDirectoryWidths()) == ImageDataDirectorySize
    ensures var d := DecodeFields(s, ImageDataDirectoryWidths()); var x := DecodeImageDataDirectory(s);
      d[0] == x.virtualAddress && d[1] == x.size
  {
    ImageDataDirectoryLayout();
  }

  /** Fields 0 to 1 of an encoded ImageDataDirectory decode to their values. */
  lemma ImageDataDirectoryFieldsRoundTrip0(x: ImageDataDirectory)
    ensures |ImageDataDirectoryFields(x)| == |ImageDataDirectoryWidths()|
    ensures var d := DecodeFields(EncodeFields(ImageDataDirectoryFields(x), ImageDataDirectoryWidths()), ImageDataDirectoryWidths());
      |d| == 2 && d[0] == x.virtualAddress && d[1] == x.size
  {
    var w := ImageDataDirectoryWidths();
    ImageDataDirectoryLayout();
    Pow256Values();
    var f := ImageDataDirectoryFields(x);
    DecodeEncodeField(f, w, 0);
    DecodeEncodeField(f, w, 1);
  }

  /** Decoding the packed fields of an ImageDataDirectory gives it back. */
  lemma ImageDataDirectoryRoundTrip(x: ImageDataDirectory)
    ensures |ImageDataDirectoryFields(x)| == |ImageDataDirectoryWidths()| && Size(ImageDataDirectoryWidths()) == ImageDataDirectorySize
    ensures DecodeImageDataDirectory(EncodeFields(ImageDataDirectoryFields(x), ImageDataDirectoryWidths())) == x
  {
    ImageDataDirectoryLayout();
    var s := EncodeFields(ImageDataDirectoryFields(x), ImageDataDirectoryWidths());
    ImageDataDirectoryFieldsRoundTrip0(x);
    ImageDataDirectoryDecodeLayout0(s);
  }

  /** The 8 packed bytes of an ImageDataDirectory; decoding them gives it back. */
  function EncodeImageDataDirectory(x: ImageDataDirectory): (s: seq<byte>)
    ensures |s| == ImageDataDirectorySize
    ensures DecodeImageDataDirectory(s) == x
  {
    ImageDataDirectoryRoundTrip(x);
    EncodeFields(ImageDataDirectoryFields(x), ImageDataDirectoryWidths())
  }

  /** The field values of `x` in order are `d`, given each one. */
  lemma ImageDataDirectoryFieldsAre(x: ImageDataDirectory, d: seq<nat>)
    requires |d| == 2
    requires d[0] == x.virtualAddress && d[1] == x.size
    ensures ImageDataDirectoryFields(x) == d
  {
  }

  /** Encoding the ImageDataDirectory decoded from `s` gives back `s`: the packed
      layout has no padding and drops no byte. */
  lemma ImageDataDirectoryDecodeRoundTrip(s: seq<byte>)
    requires |s| == ImageDataDirectorySize
    ensures EncodeImageDataDirectory(DecodeImageDataDirectory(s)) == s
  {
    ImageDataDirectoryDecodeLayout0(s);
    ImageDataDirectoryFieldsAre(DecodeImageDataDirectory(s), DecodeFields(s, ImageDataDirectoryWidths()));
    EncodeDecodeFields(s, ImageDataDirectoryWidths());
  }
}

=== FILE: results.dfy ===
/** Failure-compatible result type shared by every reader operation.

    The C++ reader reports every problem by throwing `std::runtime_error`
    (or by letting the underlying file stream throw). Here each throw site
    becomes an `Err` carrying the value the message would have named.
 */
module Results {

  /** Why a read, a construction step or a query failed. */
  datatype ReadError =
    /** A read of `count` bytes at `offset` runs past the end of the stream. */
    | EndOfStream(offset: nat, count: nat)
    /** The four bytes at the signature offset are not "PE\0\0". */
    | NotPortableExecutable
    /** The COFF characteristics lack IMAGE_FILE_DLL. */
    | NotADynamicLibrary(characteristics: int)
    /** The optional-header magic is not the PE32 marker. */
    | UnsupportedArchitecture(magic: int)
    /** The optional header declares no data directories, so entry 0 does not exist. */
    | MissingExportDirectoryEntry
    /** No section's virtual range contains the RVA. */
    | RvaNotMapped(rva: int)
    /** The export name is not in the export name table. */
    | ExportNotFound(name: seq<int>)
    /** A mission type outside the legend. */
    | ImproperMissionType(value: int)

  datatype Result<+T> = Ok(value: T) | Err(error: ReadError) {

    predicate IsFailure() {
      Err?
    }

    function PropagateFailure<U>(): Result<U>
      requires Err?
    {
      Err(error)
    }

    function Extract(): T
      requires Ok?
    {
      value
    }
  }
}
